=== FILE: README.md ===
# Quirk tables for mechs, modelled in Dafny

`quirks.py` turns per-mech quirk data into display tables. A **quirk** is a
named modifier with a value. Its value is shown as a percentage unless its name
holds one of seven keywords. A **battlemech** has one quirk list per variant.
Quirks that every variant has move to a `SHARED` row, one occurrence at a time.
An **omnimech** is built from **omnipods**. Each variant has one pod for each of
the eight **components** (head, arms, torsos, legs). A pod carries its
configuration quirks sorted by name. When the pod has hardpoints, a synthetic
`HARDPOINTS` quirk follows them. For each component column, the quirks that
every variant's pod has go to that column's shared cell. The hardpoint quirk
is never shared. Every pod then drops every occurrence of them. Both kinds of
mech render their matrix as strings. A quirk list becomes one `name: value`
line per quirk, or `--` when it is empty.

The model has these modules:

- `Results`: `Option` and `Result`.
- `Text`: Python's string `<`, substring search, `join`, decimal digits and ASCII title case.
- `Seqs`: flatten, filter, first-occurrence removal, dedup and the subsequence order.
- `Sorting`: a stable sort by a string key, proved to be the only stable sort.
- `Quirks`, `Components`, `Omnipods`.
- `Mechs`: cells and the string conversion.
- `Battlemechs`, `Omnimechs`.

Whatever the program reads from outside is a parameter:

- The number-to-percent conversion `str(int(float(v) * 100)) + '%'` is `percent: string -> Option<string>`. `None` means `float` failed.
- `str.upper` is `upper: string -> string`.
- The chassis data is a sequence of variant records. The omnipod dict is given as its values, in the dict's order.

Where the code's behaviour is unexpected, the model follows the code:

- A battlemech removes only the first occurrence of a shared quirk from each variant (`list.remove`). A quirk is shared again for each further occurrence the snapshot meets while it is still in every variant. Sharing happens only in the first variant's part of the snapshot, so the SHARED row lists the first copies of the first variant's quirks, in that variant's order.
- An omnimech with no variants gets a shared row of one cell, because `zip(*[])` has no columns.
- The hardpoint kind is spelt `missle` in the tally.

## Model

| member | source | states |
|---|---|---|
| Quirks.MakeQuirk | quirks.py:46-51 | A name containing any of ADDITIONAL, BONUS, HARDPOINT, ANGLE, JUMP, NARC or SENSOR keeps its raw value. Any other name gets the percent form of its value. A value that is not a number is an error. |
| Quirks.AnyKeywordMeansOccurrence | quirks.py:49-50 | The `any(item in name ...)` test holds exactly when some keyword occurs at some position of the name. |
| Quirks.MakeQuirks | quirks.py:114 | The list succeeds iff every record converts, and then matches the records one for one. Otherwise the error is that of the first record that fails. |
| Quirks.EqualityVersusOrder | quirks.py:56-60 | Equality needs both name and value, but order looks at names only. Equal-named quirks with different values are distinct yet tie, and `<` is never true both ways. |
| Quirks.BeforeTransitive | quirks.py:56-57 | Ordering quirks by name is transitive, so sorting quirks is well defined. |
| Quirks.SortQuirks | quirks.py:115 | Sorting a quirk list permutes it into name order. |
| Sorting.StableSortIsSortBy | quirks.py:161 | Any name-ordered permutation that keeps the input order among equal names is the modelled sort's result, so the modelled sort is Python's stable sort. |
| Sorting.SortSortedIsIdentity | quirks.py:115 | Sorting a list that is already in order changes nothing. |
| Components.Parse | quirks.py:28-36 | A record's configuration name gives the component with that value. A name that is no component's value is rejected. |
| Components.ComponentsEnumerated | quirks.py:28-36 | The enum lists eight distinct components and covers them all. Each value parses back to its component. |
| Components.LabelIsTitledValue | quirks.py:38-42 | Except for the centre torso, a column label is the value with `_` turned into a space, then title-cased. |
| Components.CentreTorsoLabel | quirks.py:39-40 | The centre torso is the exception. Title-casing its value would give "Centre Torso", but its label is "Center Torso". |
| Omnipods.GetHardpoints | quirks.py:75-80 | The count of each hardpoint kind is the sum of the counts of all entries of that kind, over all sub-records. |
| Omnipods.PresentKinds | quirks.py:100-105 | The listed kinds are exactly those with a positive count, in the order beam, missile, ballistic, AMS, ECM. |
| Omnipods.HardpointsNameKeepsValue | quirks.py:109-110 | The synthetic quirk's name holds a keyword, so its value stays verbatim. It also holds "HARDPOINTS", so the omnimech reduction never shares it. |
| Omnipods.AddHardpoints | quirks.py:82-110 | When every count is zero the quirk list is unchanged. Otherwise exactly one HARDPOINTS quirk is appended, and its value is the present kinds' tags. |
| Omnipods.HardpointsExample | quirks.py:92-108 | Two energy and one ballistic hardpoint give the tag `2E` in orange, a comma, and the tag `1B` in purple. Missing kinds are left out. |
| Omnipods.NegativeCountGivesEmptyHardpoints | quirks.py:83-109 | Any tally that is not all zero but has no positive count fails the all-zero test yet lists no kind, so the pod carries a HARDPOINTS quirk with an empty value. |
| Omnipods.MakeOmnipod | quirks.py:67-72 | A pod is built iff its component name is known and all its quirks convert. Its component, variant and hardpoint totals come from the record. |
| Omnipods.PodQuirks | quirks.py:70-72 | A pod's quirks are its configuration quirks permuted into name order. At most one HARDPOINTS quirk follows them, and only when some count is non-zero. |
| Mechs.QuirksString | quirks.py:130-133 | A quirk list shows as `--` exactly when it is empty. Otherwise the text starts with the first quirk's `name: value` line. |
| Mechs.QuirksStringLines | quirks.py:130-133 | One quirk shows as its own `name: value` line. A longer list shows as the first quirk's line, a newline, then the rest of the list shown the same way, so the lines follow the list in order. |
| Mechs.ConvertRow | quirks.py:139-150 | One row converts iff none of its cells has a foreign type. It then keeps its length, and each cell becomes its text. |
| Mechs.ConvertToStrings | quirks.py:135-152 | The matrix converts iff no cell has a foreign type. It then keeps its shape cell for cell. Otherwise the error names a foreign cell's type. |
| Seqs.RemoveFirst | quirks.py:171 | `list.remove` drops exactly one occurrence, the first: the result is the list without the element at the first index holding the value. It loses one copy as a multiset and keeps the order of the rest. |
| Seqs.KeepFirstCopiesCount | quirks.py:167-169 | Keeping the first copies named by a multiset keeps, of each value, as many copies as both the list and the multiset have. |
| Seqs.DropFirstCopiesCount | quirks.py:171 | Dropping the first copies named by a multiset takes exactly that multiset away, capped at what the list holds. |
| Seqs.RemoveFirstOfDropped | quirks.py:171 | Removing the first occurrence of a value after first copies were dropped is the same as dropping one more copy of that value. |
| Battlemechs.ShareAcrossVariants | quirks.py:165-171 | Every variant loses exactly the shared quirks, as a multiset, and it is the first copy of each that goes; the rest keep their order. Each shared quirk was in every variant, and afterwards no quirk is left in all of them. The shared quirks are exactly the first copies, in order, of their own values in the first variant, and so are in name order when it is. Without common quirks nothing changes. |
| Battlemechs.SharedCountIsMinimum | quirks.py:165-171 | Each quirk is shared as many times as it occurs in the variant that has it least often. |
| Battlemechs.Display | quirks.py:174-182 | The rows are the header, then one two-cell row per variant in strictly ascending variant order, each variant exactly once, then the SHARED row. |
| Battlemechs.BuildMatrix | quirks.py:164-183 | The variants keep their names, lose the first copy of each shared quirk and keep the order of the others. Every shared quirk was in every variant, the shared quirks are the first copies of their values in the first variant and in its order, no quirk remains common, and the matrix is the display of that result. |
| Battlemechs.MakeVariants | quirks.py:158-161 | Each variant's quirk list is the stable name sort of its converted records: a permutation into name order that keeps the record order among equal names. The first variant with a bad record ends construction with that record's error. |
| Battlemechs.Assign | quirks.py:158-159 | Storing an entry in a dict keeps the keys distinct. A present name keeps its place and takes the new records, and a new name goes last. |
| Battlemechs.DictOf | quirks.py:158-159 | The dict's keys are the chassis data's variant names, once each, in order of first appearance. A name given more than once keeps the records of its last entry. |
| Battlemechs.FromDict | quirks.py:157-162 | A mech is built iff every variant's quirks convert, and otherwise fails with the first failing variant's error in dict order. A built mech has the upper-cased name, the header `[name, "Quirks"]`, one two-cell row per variant and the SHARED row showing its shared quirks. Its variants and shared quirks are what the sharing loop leaves of the sorted variants: each variant loses the first copy of each shared quirk, and the shared quirks are the first copies of their values in the first variant, in its order. Its matrix is their display. |
| Battlemechs.BuildFromEntries | quirks.py:157-162 | Once every variant has converted, the mech built from the sorted variants has every property of a mech built from the dict. |
| Battlemechs.NewBattlemech | quirks.py:156-162 | A mech built from raw chassis data has every property of one built from its dict. It exists iff every variant's quirks convert, it carries the upper-cased name, and it has one two-cell row per dict entry between the header and the SHARED row. Its matrix displays the sharing loop's result on the dict's sorted variants, with the first copies of the shared quirks removed and the shared quirks in the first variant's order. |
| Battlemechs.DictOfSize | quirks.py:158-159 | The dict, and so the table, has one entry per distinct variant name of the chassis data. |
| Omnimechs.FindPod | quirks.py:193-195 | The first pod of the variant for the component, or none when no pod fits. |
| Omnimechs.Variants | quirks.py:190 | The variants are exactly the names that some pod carries. Each appears once, in strictly ascending order. |
| Omnimechs.PodsFor | quirks.py:200 | A variant's row has one pod per component, each the one `_find_pod` finds. The first component without a pod is the error. |
| Omnimechs.Grid | quirks.py:199-202 | The grid exists iff every variant has a pod for every component, and holds those pods. Otherwise the error names a variant with no pod for that component. |
| Omnimechs.Common | quirks.py:207-219 | The column's common quirks are exactly those, other than the hardpoint quirk, found in every pod of a non-empty column. Each appears once. |
| Omnimechs.Unshared | quirks.py:223-226 | Every occurrence of a shared quirk leaves every pod. All other quirks keep their counts and order. |
| Omnimechs.ReduceColumn | quirks.py:207-226 | The shared cell holds exactly the non-hardpoint quirks common to the column's pods, once each and in name order. The pods lose all their occurrences and keep everything else in order. |
| Omnimechs.ReduceGrid | quirks.py:204-227 | Each column is reduced on its own. There are eight shared cells, or none when there are no variants. |
| Omnimechs.ColumnsIndependent | quirks.py:207-226 | Two grids whose column agrees get the same shared cell and the same pod quirks in that column, whatever the other columns hold. |
| Omnimechs.HardpointsNeverShared | quirks.py:207-226 | The hardpoint quirk is never in a shared cell, and every pod keeps all its copies of it. |
| Omnimechs.Header | quirks.py:230 | The header is the name followed by the eight component labels in enum order. |
| Omnimechs.OmniLayoutShape | quirks.py:227-231 | The matrix has a header, a nine-cell row per variant headed by its name, and the SHARED row. With no variants that row has a single cell. |
| Omnimechs.BuildMatrix | quirks.py:197-232 | The build succeeds iff every variant has every pod, and otherwise fails on a missing one. Each slot holds its pod minus the column's shared quirks, the rest in their original order. Each shared cell holds, once each and sorted, the non-hardpoint quirks that all of that column's pods had. |
| Omnimechs.MakePods | quirks.py:189 | The pods match the records one for one. The first record that cannot become a pod is the error. |
| Omnimechs.NewOmnimech | quirks.py:187-191 | A bad record fails before any pod is looked up. Otherwise the result is the build from the pods under the upper-cased name, whose matrix begins with that name's header. |

## Left out

- Downloading data, writing HTML and the script's entry point (from line 235 of `quirks.py` on). These are network and file I/O.
- Float arithmetic in the percent conversion is a parameter, because Dafny has no IEEE doubles.
- Python's Unicode `str.upper` is a parameter. The labels' `.title()` is modelled for ASCII only, which covers every component value.
- JSON navigation (`pod_dict['configuration']['name']` and similar) is left out. A record holds the fields already extracted, and a missing key is not modelled.
- JSON numbers versus strings: raw values are text. `int(hardpoint['count'])` is taken as already an integer.
- Hardpoint types are taken as already lower-cased. A type other than the five known ones would raise `KeyError` at line 79, and the `Kind` type excludes it.
- Omnimechs.Common: Python enumerates a `set` in hash order. The model uses first-appearance order. The shared cell is then sorted by name, so the two agree up to the order of same-name quirks, which the contracts leave open.
- Omnimechs.Unshared: the source filters by the unsorted shared list, the model by the sorted one. Both hold the same quirks, so the filter is the same.
- `__repr__`, `Omnipod.__str__`, `Mech.__lt__`, `Quirk.__hash__` and the `print` before the exception are left out. They produce debugging text or hashing only.

=== FILE: battlemechs.dfy ===
/**
 * `Battlemech`: one quirk list per variant; quirks present in every variant
 * are moved to a shared row, one occurrence at a time.
 */
module Battlemechs {
  import opened Results
  import opened Text
  import opened Seqs
  import Sorting
  import opened Quirks
  import opened Mechs

  /** One entry of `quirk_dict`: a variant name and its quirks. */
  datatype VariantQuirks = VariantQuirks(variant: string, quirks: seq<Quirk>)

  /** One entry of the raw chassis data, already keyed by variant name. */
  datatype VariantRecords = VariantRecords(variant: string, records: seq<QuirkRecord>)

  function VariantOf(e: VariantQuirks): string { e.variant }

  function RecordsVariant(e: VariantRecords): string { e.variant }

  function QuirkLists(entries: seq<VariantQuirks>): (r: seq<seq<Quirk>>)
    ensures |r| == |entries|
    ensures forall v :: 0 <= v < |entries| ==> r[v] == entries[v].quirks
  {
    seq(|entries|, v requires 0 <= v < |entries| => entries[v].quirks)
  }

  /** Counts in the unprocessed suffix bound what is left of some variant. */
  ghost predicate SomeVariantWithin(cur: seq<seq<Quirk>>, suffix: seq<Quirk>, q: Quirk) {
    exists v :: 0 <= v < |cur| && multiset(cur[v])[q] <= multiset(suffix)[q]
  }

  /** Every quirk is bounded as above: what the loop has not yet seen cannot
      keep a quirk in every list. */
  ghost predicate Bounded(cur: seq<seq<Quirk>>, suffix: seq<Quirk>) {
    forall q :: SomeVariantWithin(cur, suffix, q)
  }

  /** Each list is its original minus the shared quirks. */
  ghost predicate Conserves(lists: seq<seq<Quirk>>, cur: seq<seq<Quirk>>, shared: seq<Quirk>) {
    |cur| == |lists| &&
    forall v :: 0 <= v < |lists| ==> multiset(lists[v]) == multiset(cur[v]) + multiset(shared)
  }

  /** Each list keeps the relative order of its original. */
  ghost predicate KeepsOrder(lists: seq<seq<Quirk>>, cur: seq<seq<Quirk>>) {
    |cur| == |lists| &&
    forall v :: 0 <= v < |lists| ==> IsSubsequence(cur[v], lists[v])
  }

  /** Removes the first occurrence of `q` from every list. */
  function RemoveFromEach(cur: seq<seq<Quirk>>, q: Quirk): (r: seq<seq<Quirk>>)
    requires InEvery(cur, q)
    ensures |r| == |cur|
    ensures forall v :: 0 <= v < |cur| ==> r[v] == RemoveFirst(cur[v], q)
  {
    seq(|cur|, v requires 0 <= v < |cur| => RemoveFirst(cur[v], q))
  }

  lemma ShareKeepsConservation(lists: seq<seq<Quirk>>, cur: seq<seq<Quirk>>, shared: seq<Quirk>, q: Quirk)
    requires Conserves(lists, cur, shared) && KeepsOrder(lists, cur) && InEvery(cur, q)
    ensures Conserves(lists, RemoveFromEach(cur, q), shared + [q])
    ensures KeepsOrder(lists, RemoveFromEach(cur, q))
  {
    var next := RemoveFromEach(cur, q);
    forall v | 0 <= v < |lists|
      ensures multiset(lists[v]) == multiset(next[v]) + multiset(shared + [q])
      ensures IsSubsequence(next[v], lists[v])
    {
      SubsequenceTransitive(next[v], cur[v], lists[v]);
    }
  }

  lemma ShareKeepsBound(cur: seq<seq<Quirk>>, q: Quirk, suffix: seq<Quirk>)
    requires InEvery(cur, q) && Bounded(cur, [q] + suffix)
    ensures Bounded(RemoveFromEach(cur, q), suffix)
  {
    var next := RemoveFromEach(cur, q);
    forall p ensures SomeVariantWithin(next, suffix, p) {
      assert SomeVariantWithin(cur, [q] + suffix, p);
      var v :| 0 <= v < |cur| && multiset(cur[v])[p] <= multiset([q] + suffix)[p];
      assert multiset(next[v])[p] <= multiset(suffix)[p];
    }
  }

  lemma SkipKeepsBound(cur: seq<seq<Quirk>>, q: Quirk, suffix: seq<Quirk>)
    requires !InEvery(cur, q) && Bounded(cur, [q] + suffix)
    ensures Bounded(cur, suffix)
  {
    forall p ensures SomeVariantWithin(cur, suffix, p) {
      if p == q {
        var v :| 0 <= v < |cur| && q !in cur[v];
        assert multiset(cur[v])[p] == 0;
      } else {
        assert SomeVariantWithin(cur, [q] + suffix, p);
        var v :| 0 <= v < |cur| && multiset(cur[v])[p] <= multiset([q] + suffix)[p];
        assert multiset(cur[v])[p] <= multiset(suffix)[p];
      }
    }
  }

  /** The first list bounds itself: before the loop has walked the first
      variant's part of the snapshot, the rest of that part bounds it. */
  lemma InitiallyBounded(lists: seq<seq<Quirk>>)
    requires |lists| > 0
    ensures Bounded(lists, lists[0])
  {
    forall q ensures SomeVariantWithin(lists, lists[0], q) {
      assert multiset(lists[0])[q] <= multiset(lists[0])[q];
    }
  }

  /** Each list is its original with the first copies of the shared quirks
      dropped. */
  ghost predicate DropsFirstCopies(lists: seq<seq<Quirk>>, cur: seq<seq<Quirk>>, shared: seq<Quirk>) {
    cur == DropEach(lists, multiset(shared))
  }

  /** Every list with the first copies counted by `m` dropped. */
  function DropEach(lists: seq<seq<Quirk>>, m: multiset<Quirk>): (r: seq<seq<Quirk>>)
    ensures |r| == |lists|
  {
    seq(|lists|, v requires 0 <= v < |lists| => DropFirstCopies(lists[v], m))
  }

  lemma InitiallyNothingDropped(lists: seq<seq<Quirk>>)
    ensures DropsFirstCopies(lists, lists, [])
  {
    forall v | 0 <= v < |lists| ensures lists[v] == DropFirstCopies(lists[v], multiset{})
    {
      DropNothing(lists[v]);
    }
    var none: seq<Quirk> := [];
    assert multiset(none) == multiset{};
    assert lists == DropEach(lists, multiset(none));
  }

  /** Removing the first copy of one more shared quirk from every list drops
      one more first copy of it. */
  lemma ShareDropsFirstCopy(lists: seq<seq<Quirk>>, cur: seq<seq<Quirk>>, shared: seq<Quirk>, q: Quirk)
    requires DropsFirstCopies(lists, cur, shared) && InEvery(cur, q)
    ensures DropsFirstCopies(lists, RemoveFromEach(cur, q), shared + [q])
  {
    var next := RemoveFromEach(cur, q);
    assert multiset(shared + [q]) == multiset(shared) + multiset{q};
    forall v | 0 <= v < |lists|
      ensures next[v] == DropFirstCopies(lists[v], multiset(shared + [q]))
    {
      assert cur[v] == DropEach(lists, multiset(shared))[v];
      RemoveFirstOfDropped(lists[v], multiset(shared), q);
    }
    assert next == DropEach(lists, multiset(shared + [q]));
  }

  /** The snapshot begins with the first variant's list. */
  lemma SnapshotStartsWithFirst(lists: seq<seq<Quirk>>)
    requires |lists| > 0
    ensures |lists[0]| <= |Flatten(lists)| && Flatten(lists)[..|lists[0]|] == lists[0]
  {
  }

  /** A share taken while walking the first variant's part keeps the shared
      quirks a subsequence of that part. */
  lemma SharedFollowsFirst(first: seq<Quirk>, shared: seq<Quirk>, i: nat, share: bool)
    requires i < |first| && IsSubsequence(shared, first[..i])
    ensures IsSubsequence(if share then shared + [first[i]] else shared, first[..i + 1])
  {
    assert first[..i + 1] == first[..i] + [first[i]];
    if share {
      SubsequenceAppend(shared, first[..i], first[i]);
    } else {
      RemoveAtSubsequence(first[..i + 1], i);
      assert first[..i + 1][..i] + first[..i + 1][i + 1..] == first[..i];
      SubsequenceTransitive(shared, first[..i], first[..i + 1]);
    }
  }

  lemma SharedComesFromEvery(lists: seq<seq<Quirk>>, cur: seq<seq<Quirk>>, shared: seq<Quirk>)
    requires Conserves(lists, cur, shared)
    ensures forall q :: q in shared ==> InEvery(lists, q)
  {
    forall q | q in shared ensures InEvery(lists, q) {
      forall v | 0 <= v < |lists| ensures q in lists[v] {
        assert multiset(lists[v])[q] >= multiset(shared)[q] > 0;
      }
    }
  }

  lemma NothingLeftInEvery(cur: seq<seq<Quirk>>, suffix: seq<Quirk>)
    requires Bounded(cur, suffix) && suffix == []
    ensures forall q :: !InEvery(cur, q)
  {
    forall q ensures !InEvery(cur, q) {
      assert SomeVariantWithin(cur, suffix, q);
      var v :| 0 <= v < |cur| && multiset(cur[v])[q] <= multiset(suffix)[q];
      assert q !in cur[v];
    }
  }

  /** The first variant's list, or nothing when there are no variants. */
  function FirstList(lists: seq<seq<Quirk>>): seq<Quirk> {
    if |lists| > 0 then lists[0] else []
  }

  /** What the loop's progress guarantees after walking `i` quirks of the
      snapshot: while inside the first variant's part, what is left of that
      part bounds the lists; after it, no quirk is common; and every share so
      far came from the walked part of the first list, in order. */
  ghost predicate Progress(lists: seq<seq<Quirk>>, i: nat, cur: seq<seq<Quirk>>, shared: seq<Quirk>) {
    var first := FirstList(lists);
    && (|lists| > 0 && i <= |first| ==> Bounded(cur, first[i..]))
    && (|lists| > 0 && i >= |first| ==> forall q :: !InEvery(cur, q))
    && IsSubsequence(shared, first[..if i <= |first| then i else |first|])
  }

  /** The part of the first list that the loop has walked after `i` quirks
      of the snapshot. */
  function WalkedFirst(lists: seq<seq<Quirk>>, i: nat): seq<Quirk> {
    var first := FirstList(lists);
    first[..if i <= |first| then i else |first|]
  }

  /** The shared quirks are the first copies, in order, of the walked part
      of the first list; and a quirk still in every list was shared at each
      of its occurrences there. */
  ghost predicate SharesInOrder(lists: seq<seq<Quirk>>, i: nat, cur: seq<seq<Quirk>>, shared: seq<Quirk>) {
    var w := WalkedFirst(lists, i);
    && multiset(shared) <= multiset(w)
    && shared == KeepFirstCopies(w, multiset(shared))
    && (forall x :: InEvery(cur, x) ==> multiset(shared)[x] == multiset(w)[x])
  }

  /** One iteration of the loop: a quirk still in every list is shared and
      its first copy removed from each list; otherwise nothing changes. */
  function ShareStep(cur: seq<seq<Quirk>>, shared: seq<Quirk>, q: Quirk): (seq<seq<Quirk>>, seq<Quirk>) {
    if InEvery(cur, q) then (RemoveFromEach(cur, q), shared + [q]) else (cur, shared)
  }

  /** Walking a quirk inside the first variant's part keeps `Progress`. */
  lemma ProgressInFirst(lists: seq<seq<Quirk>>, i: nat, cur: seq<seq<Quirk>>, shared: seq<Quirk>)
    requires |lists| > 0 && i < |lists[0]| && Progress(lists, i, cur, shared)
    ensures var next := ShareStep(cur, shared, lists[0][i]);
            Progress(lists, i + 1, next.0, next.1)
  {
    var first := lists[0];
    var q := first[i];
    var share := InEvery(cur, q);
    var next := ShareStep(cur, shared, q);
    assert first[i..] == [q] + first[i + 1..];
    SharedFollowsFirst(first, shared, i, share);
    if share {
      ShareKeepsBound(cur, q, first[i + 1..]);
    } else {
      SkipKeepsBound(cur, q, first[i + 1..]);
    }
    if i + 1 == |first| {
      NothingLeftInEvery(next.0, first[i + 1..]);
    }
  }

  /** Any iteration keeps `Progress`: past the first variant's part nothing
      is common, so nothing changes. */
  lemma ProgressStep(lists: seq<seq<Quirk>>, i: nat, cur: seq<seq<Quirk>>, shared: seq<Quirk>)
    requires i < |Flatten(lists)| && Progress(lists, i, cur, shared)
    ensures var next := ShareStep(cur, shared, Flatten(lists)[i]);
            Progress(lists, i + 1, next.0, next.1)
  {
    SnapshotStartsWithFirst(lists);
    if i < |lists[0]| {
      assert Flatten(lists)[i] == lists[0][i] by {
        assert Flatten(lists)[..|lists[0]|][i] == Flatten(lists)[i];
      }
      ProgressInFirst(lists, i, cur, shared);
    } else {
      assert !InEvery(cur, Flatten(lists)[i]);
    }
  }

  /** Removing a quirk's first copy from every list leaves no new common
      quirk. */
  lemma RemoveKeepsNoneNew(cur: seq<seq<Quirk>>, q: Quirk, x: Quirk)
    requires InEvery(cur, q) && InEvery(RemoveFromEach(cur, q), x)
    ensures InEvery(cur, x)
  {
    forall v | 0 <= v < |cur| ensures x in cur[v] {
      assert x in RemoveFirst(cur[v], q);
      assert multiset(RemoveFirst(cur[v], q))[x] > 0;
    }
  }

  /** Walking a quirk inside the first variant's part keeps `SharesInOrder`:
      a common quirk has had every earlier copy shared, so sharing it again
      takes its next first copy. */
  lemma OrderInFirst(lists: seq<seq<Quirk>>, i: nat, cur: seq<seq<Quirk>>, shared: seq<Quirk>)
    requires |lists| > 0 && i < |lists[0]| && SharesInOrder(lists, i, cur, shared)
    ensures var next := ShareStep(cur, shared, lists[0][i]);
            SharesInOrder(lists, i + 1, next.0, next.1)
  {
    var w, q := WalkedFirst(lists, i), lists[0][i];
    assert WalkedFirst(lists, i + 1) == w + [q];
    var m := multiset(shared);
    if InEvery(cur, q) {
      var next := RemoveFromEach(cur, q);
      assert multiset(shared + [q]) == m + multiset{q};
      KeepAppendKept(w, m, q);
      forall x | InEvery(next, x)
        ensures multiset(shared + [q])[x] == multiset(w + [q])[x]
      {
        RemoveKeepsNoneNew(cur, q, x);
      }
    } else {
      KeepAppendSkipped(w, m, q);
    }
  }

  /** Any iteration keeps `SharesInOrder`: past the first variant's part
      nothing is common, so nothing changes. */
  lemma OrderStep(lists: seq<seq<Quirk>>, i: nat, cur: seq<seq<Quirk>>, shared: seq<Quirk>,
                  cur': seq<seq<Quirk>>, shared': seq<Quirk>)
    requires i < |Flatten(lists)| && SharesInOrder(lists, i, cur, shared)
    requires |lists| > 0 && i >= |lists[0]| ==> forall q :: !InEvery(cur, q)
    requires (cur', shared') == ShareStep(cur, shared, Flatten(lists)[i])
    ensures SharesInOrder(lists, i + 1, cur', shared')
  {
    SnapshotStartsWithFirst(lists);
    if i < |lists[0]| {
      assert Flatten(lists)[i] == lists[0][i] by {
        assert Flatten(lists)[..|lists[0]|][i] == Flatten(lists)[i];
      }
      OrderInFirst(lists, i, cur, shared);
    } else {
      assert !InEvery(cur, Flatten(lists)[i]);
      assert WalkedFirst(lists, i + 1) == WalkedFirst(lists, i);
    }
  }

  /** Any iteration keeps the counting, order and first-copy facts. */
  lemma ReductionStep(lists: seq<seq<Quirk>>, cur: seq<seq<Quirk>>, shared: seq<Quirk>, q: Quirk)
    requires Conserves(lists, cur, shared) && KeepsOrder(lists, cur) && DropsFirstCopies(lists, cur, shared)
    ensures var next := ShareStep(cur, shared, q);
            Conserves(lists, next.0, next.1) && KeepsOrder(lists, next.0) && DropsFirstCopies(lists, next.0, next.1)
  {
    if InEvery(cur, q) {
      ShareKeepsConservation(lists, cur, shared, q);
      ShareDropsFirstCopy(lists, cur, shared, q);
    }
  }

  /** The lists and shared quirks after the loop has walked the first `i`
      quirks of the snapshot. */
  function Walk(lists: seq<seq<Quirk>>, i: nat): (seq<seq<Quirk>>, seq<Quirk>)
    requires i <= |Flatten(lists)|
  {
    if i == 0 then (lists, [])
    else
      var prev := Walk(lists, i - 1);
      ShareStep(prev.0, prev.1, Flatten(lists)[i - 1])
  }

  /** Every state of the loop keeps the counting, order and first-copy
      facts. */
  lemma {:induction false} WalkReduces(lists: seq<seq<Quirk>>, i: nat)
    requires i <= |Flatten(lists)|
    ensures var s := Walk(lists, i);
            Conserves(lists, s.0, s.1) && KeepsOrder(lists, s.0) && DropsFirstCopies(lists, s.0, s.1)
  {
    if i == 0 {
      forall v | 0 <= v < |lists| {
        SubsequenceReflexive(lists[v]);
      }
      InitiallyNothingDropped(lists);
    } else {
      var prev := Walk(lists, i - 1);
      WalkReduces(lists, i - 1);
      ReductionStep(lists, prev.0, prev.1, Flatten(lists)[i - 1]);
    }
  }

  /** Every state of the loop keeps `Progress`. */
  lemma {:induction false} WalkProgresses(lists: seq<seq<Quirk>>, i: nat)
    requires i <= |Flatten(lists)|
    ensures Progress(lists, i, Walk(lists, i).0, Walk(lists, i).1)
  {
    if i == 0 {
      var none: seq<Quirk> := [];
      assert FirstList(lists)[..0] == none;
      SubsequenceReflexive(none);
      if |lists| > 0 {
        InitiallyBounded(lists);
        assert lists[0][0..] == lists[0];
        if |lists[0]| == 0 {
          NothingLeftInEvery(lists, lists[0][0..]);
        }
      }
    } else {
      var prev := Walk(lists, i - 1);
      WalkProgresses(lists, i - 1);
      ProgressStep(lists, i - 1, prev.0, prev.1);
    }
  }

  /** Once the loop is past the first variant's part, no quirk is common. */
  lemma WalkPastFirst(lists: seq<seq<Quirk>>, i: nat)
    requires i <= |Flatten(lists)|
    ensures |lists| > 0 && i >= |lists[0]| ==> forall q :: !InEvery(Walk(lists, i).0, q)
  {
    WalkProgresses(lists, i);
  }

  /** Before the loop nothing is walked and nothing is shared. */
  lemma StartsInOrder(lists: seq<seq<Quirk>>)
    ensures SharesInOrder(lists, 0, lists, [])
  {
    assert WalkedFirst(lists, 0) == [];
  }

  /** Every state of the loop keeps `SharesInOrder`. */
  lemma {:induction false} WalkSharesInOrder(lists: seq<seq<Quirk>>, i: nat)
    requires i <= |Flatten(lists)|
    ensures SharesInOrder(lists, i, Walk(lists, i).0, Walk(lists, i).1)
  {
    if i == 0 {
      StartsInOrder(lists);
    } else {
      var prev := Walk(lists, i - 1);
      WalkPastFirst(lists, i - 1);
      WalkSharesInOrder(lists, i - 1);
      OrderStep(lists, i - 1, prev.0, prev.1, Walk(lists, i).0, Walk(lists, i).1);
    }
  }

  /** Without a common quirk the loop changes nothing. */
  lemma {:induction false} WalkWithoutCommon(lists: seq<seq<Quirk>>, i: nat)
    requires i <= |Flatten(lists)| && forall q :: !InEvery(lists, q)
    ensures Walk(lists, i) == (lists, [])
  {
    if i > 0 {
      WalkWithoutCommon(lists, i - 1);
      assert !InEvery(lists, Flatten(lists)[i - 1]);
    }
  }

  /** After the whole snapshot: nothing is common and the shared quirks are
      a subsequence of the first list. */
  lemma WalkDone(lists: seq<seq<Quirk>>, cur: seq<seq<Quirk>>, shared: seq<Quirk>)
    requires (cur, shared) == Walk(lists, |Flatten(lists)|)
    ensures |cur| == |lists|
    ensures forall v :: 0 <= v < |lists| ==> multiset(lists[v]) == multiset(cur[v]) + multiset(shared)
    ensures forall v :: 0 <= v < |lists| ==> IsSubsequence(cur[v], lists[v])
    ensures forall v :: 0 <= v < |lists| ==> cur[v] == DropFirstCopies(lists[v], multiset(shared))
    ensures |lists| > 0 ==> forall q :: !InEvery(cur, q)
    ensures forall q :: q in shared ==> InEvery(lists, q)
    ensures |lists| > 0 ==> IsSubsequence(shared, lists[0])
    ensures |lists| > 0 ==> shared == KeepFirstCopies(lists[0], multiset(shared))
    ensures forall v :: 0 <= v < |lists| && Sorting.SortedBy(lists[v], NameOf) ==> Sorting.SortedBy(cur[v], NameOf)
    ensures |lists| > 0 && Sorting.SortedBy(lists[0], NameOf) ==> Sorting.SortedBy(shared, NameOf)
  {
    ProgressDone(lists, cur, shared);
    ReductionDone(lists, cur, shared);
    OrderDone(lists, cur, shared);
  }

  /** After the whole snapshot the shared quirks are the first copies, in
      order, of the first list. */
  lemma OrderDone(lists: seq<seq<Quirk>>, cur: seq<seq<Quirk>>, shared: seq<Quirk>)
    requires (cur, shared) == Walk(lists, |Flatten(lists)|)
    ensures |lists| > 0 ==> shared == KeepFirstCopies(lists[0], multiset(shared))
  {
    WalkSharesInOrder(lists, |Flatten(lists)|);
    if |lists| > 0 {
      SnapshotStartsWithFirst(lists);
      assert WalkedFirst(lists, |Flatten(lists)|) == lists[0];
    }
  }

  /** After the whole snapshot nothing is common, and the shared quirks are
      a subsequence of the first list. */
  lemma ProgressDone(lists: seq<seq<Quirk>>, cur: seq<seq<Quirk>>, shared: seq<Quirk>)
    requires (cur, shared) == Walk(lists, |Flatten(lists)|)
    ensures |lists| > 0 ==> forall q :: !InEvery(cur, q)
    ensures |lists| > 0 ==> IsSubsequence(shared, lists[0])
    ensures |lists| > 0 && Sorting.SortedBy(lists[0], NameOf) ==> Sorting.SortedBy(shared, NameOf)
  {
    WalkProgresses(lists, |Flatten(lists)|);
    if |lists| > 0 {
      SnapshotStartsWithFirst(lists);
      assert lists[0][..|lists[0]|] == lists[0];
      if Sorting.SortedBy(lists[0], NameOf) {
        Sorting.SubsequenceKeepsSorted(shared, lists[0], NameOf);
      }
    }
  }

  /** The per-list facts, spelt out for each list. */
  lemma ReductionDone(lists: seq<seq<Quirk>>, cur: seq<seq<Quirk>>, shared: seq<Quirk>)
    requires (cur, shared) == Walk(lists, |Flatten(lists)|)
    ensures |cur| == |lists|
    ensures forall v :: 0 <= v < |lists| ==> multiset(lists[v]) == multiset(cur[v]) + multiset(shared)
    ensures forall v :: 0 <= v < |lists| ==> IsSubsequence(cur[v], lists[v])
    ensures forall v :: 0 <= v < |lists| ==> cur[v] == DropFirstCopies(lists[v], multiset(shared))
    ensures forall q :: q in shared ==> InEvery(lists, q)
    ensures forall v :: 0 <= v < |lists| && Sorting.SortedBy(lists[v], NameOf) ==> Sorting.SortedBy(cur[v], NameOf)
  {
    WalkReduces(lists, |Flatten(lists)|);
    assert forall v :: 0 <= v < |lists| ==> cur[v] == DropEach(lists, multiset(shared))[v];
    SharedComesFromEvery(lists, cur, shared);
    forall v | 0 <= v < |lists| && Sorting.SortedBy(lists[v], NameOf)
      ensures Sorting.SortedBy(cur[v], NameOf)
    {
      Sorting.SubsequenceKeepsSorted(cur[v], lists[v], NameOf);
    }
  }

  /** The loop of `Battlemech._build_matrix`. For each quirk of a snapshot of
      all lists, taken once: if it is still in every list, it is appended to
      the shared list and its first occurrence is removed from every list.
      Every list loses exactly the first copies of the shared quirks, keeps
      its order, and no quirk is left in all of them. Every share happens
      while the loop walks the first variant's part of the snapshot, and a
      quirk still common there is shared at each of its occurrences, so the
      shared quirks are the first copies of that list's quirks in its order
      (name order, once it is sorted). A chassis without common quirks is
      left as it is. */
  method ShareAcrossVariants(lists: seq<seq<Quirk>>) returns (rest: seq<seq<Quirk>>, shared: seq<Quirk>)
    ensures |rest| == |lists|
    ensures forall v :: 0 <= v < |lists| ==> multiset(lists[v]) == multiset(rest[v]) + multiset(shared)
    ensures forall v :: 0 <= v < |lists| ==> IsSubsequence(rest[v], lists[v])
    ensures forall v :: 0 <= v < |lists| ==> rest[v] == DropFirstCopies(lists[v], multiset(shared))
    ensures |lists| > 0 ==> forall q :: !InEvery(rest, q)
    ensures forall q :: q in shared ==> InEvery(lists, q)
    ensures |lists| > 0 ==> IsSubsequence(shared, lists[0])
    ensures |lists| > 0 ==> shared == KeepFirstCopies(lists[0], multiset(shared))
    ensures (forall q :: !InEvery(lists, q)) ==> rest == lists && shared == []
    ensures |lists| == 0 ==> rest == [] && shared == []
    ensures forall v :: 0 <= v < |lists| && Sorting.SortedBy(lists[v], NameOf) ==> Sorting.SortedBy(rest[v], NameOf)
    ensures |lists| > 0 && Sorting.SortedBy(lists[0], NameOf) ==> Sorting.SortedBy(shared, NameOf)
  {
    var snap := Flatten(lists);
    rest, shared := lists, [];
    var i := 0;
    while i < |snap|
      invariant 0 <= i <= |snap|
      invariant (rest, shared) == Walk(lists, i)
    {
      rest, shared := ShareStep(rest, shared, snap[i]).0, ShareStep(rest, shared, snap[i]).1;
      i := i + 1;
    }
    if forall q :: !InEvery(lists, q) {
      WalkWithoutCommon(lists, i);
    }
    WalkDone(lists, rest, shared);
  }

  /** What the loop's result means for counts: every quirk is shared exactly
      as often as it occurs in the variant that has it least often. */
  lemma {:induction false} SharedCountIsMinimum(lists: seq<seq<Quirk>>, rest: seq<seq<Quirk>>, shared: seq<Quirk>)
    requires |lists| > 0 && Conserves(lists, rest, shared)
    requires forall q :: !InEvery(rest, q)
    ensures forall q, v :: 0 <= v < |lists| ==> multiset(shared)[q] <= multiset(lists[v])[q]
    ensures forall q :: exists v :: 0 <= v < |lists| && multiset(shared)[q] == multiset(lists[v])[q]
  {
    forall q ensures exists v :: 0 <= v < |lists| && multiset(shared)[q] == multiset(lists[v])[q] {
      assert !InEvery(rest, q);
      var v :| 0 <= v < |rest| && q !in rest[v];
      assert multiset(rest[v])[q] == 0;
      assert multiset(shared)[q] == multiset(lists[v])[q];
    }
  }

  /** The two cells of a variant's row. */
  function VariantCells(e: VariantQuirks): seq<Cell> {
    [TextCell(e.variant), ListCell(e.quirks)]
  }

  /** The rows before conversion: variants in name order, then the shared row. */
  function CellRows(sorted: seq<VariantQuirks>, shared: seq<Quirk>): (cells: seq<seq<Cell>>)
    ensures |cells| == |sorted| + 1
    ensures forall i :: 0 <= i < |sorted| ==> cells[i] == VariantCells(sorted[i])
    ensures cells[|sorted|] == [TextCell(SharedLabel), ListCell(shared)]
  {
    seq(|sorted|, i requires 0 <= i < |sorted| => VariantCells(sorted[i])) + [[TextCell(SharedLabel), ListCell(shared)]]
  }

  /** Puts the reduced lists back under their variant names. */
  function Rekey(entries: seq<VariantQuirks>, lists: seq<seq<Quirk>>): (r: seq<VariantQuirks>)
    requires |lists| == |entries|
    ensures |r| == |entries|
    ensures forall v :: 0 <= v < |entries| ==> r[v] == VariantQuirks(entries[v].variant, lists[v])
  {
    seq(|entries|, v requires 0 <= v < |entries| => VariantQuirks(entries[v].variant, lists[v]))
  }

  /** The display row of a variant. */
  function DisplayRow(e: VariantQuirks): seq<string> {
    [e.variant, QuirksString(e.quirks)]
  }

  /** The display matrix: header, one row per variant in the given order,
      then the shared row. */
  function Layout(name: string, sorted: seq<VariantQuirks>, shared: seq<Quirk>): seq<seq<string>> {
    [[name, "Quirks"]] + seq(|sorted|, i requires 0 <= i < |sorted| => DisplayRow(sorted[i]))
    + [[SharedLabel, QuirksString(shared)]]
  }

  lemma LayoutRows(name: string, sorted: seq<VariantQuirks>, shared: seq<Quirk>)
    ensures |Layout(name, sorted, shared)| == |sorted| + 2
    ensures Layout(name, sorted, shared)[0] == [name, "Quirks"]
    ensures forall i :: 0 <= i < |sorted| ==> Layout(name, sorted, shared)[i + 1] == DisplayRow(sorted[i])
    ensures Layout(name, sorted, shared)[|sorted| + 1] == [SharedLabel, QuirksString(shared)]
  {
  }

  /** Every cell of the rows is a string or a list of quirks. */
  lemma CellRowsConvert(sorted: seq<VariantQuirks>, shared: seq<Quirk>)
    ensures ConvertToStrings(CellRows(sorted, shared)).Ok?
  {
    var cells := CellRows(sorted, shared);
    forall i, j | 0 <= i < |cells| && 0 <= j < |cells[i]| ensures Convertible(cells[i][j]) {
      if i < |sorted| {
        assert cells[i] == VariantCells(sorted[i]);
      }
    }
  }

  lemma ConvertedRow(cells: seq<seq<Cell>>, text: seq<seq<string>>, i: nat)
    requires ConvertToStrings(cells) == Ok(text) && i < |cells| && |cells[i]| == 2
    ensures text[i] == [CellText(cells[i][0]).value, CellText(cells[i][1]).value]
  {
    var row := text[i];
    assert |row| == 2;
    assert Ok(row[0]) == CellText(cells[i][0]);
    assert Ok(row[1]) == CellText(cells[i][1]);
    assert row == [row[0], row[1]];
  }

  /** Converting the cell rows gives one display row per variant, then the
      shared row. */
  lemma ConvertedCellRows(sorted: seq<VariantQuirks>, shared: seq<Quirk>)
    ensures ConvertToStrings(CellRows(sorted, shared)).Ok?
    ensures var text := ConvertToStrings(CellRows(sorted, shared)).value;
            && |text| == |sorted| + 1
            && (forall i :: 0 <= i < |sorted| ==> text[i] == DisplayRow(sorted[i]))
            && text[|sorted|] == [SharedLabel, QuirksString(shared)]
  {
    var cells := CellRows(sorted, shared);
    CellRowsConvert(sorted, shared);
    var text := ConvertToStrings(cells).value;
    forall i | 0 <= i < |sorted| ensures text[i] == DisplayRow(sorted[i]) {
      ConvertedRow(cells, text, i);
    }
    ConvertedRow(cells, text, |sorted|);
  }

  /** Converting the cell rows and inserting the header yields the layout. */
  lemma {:induction false} ConvertedRows(name: string, sorted: seq<VariantQuirks>, shared: seq<Quirk>)
    ensures ConvertToStrings(CellRows(sorted, shared)).Ok?
    ensures [[name, "Quirks"]] + ConvertToStrings(CellRows(sorted, shared)).value == Layout(name, sorted, shared)
  {
    ConvertedCellRows(sorted, shared);
    var text := ConvertToStrings(CellRows(sorted, shared)).value;
    var layout := Layout(name, sorted, shared);
    LayoutRows(name, sorted, shared);
    var full := [[name, "Quirks"]] + text;
    forall k | 0 <= k < |layout| ensures full[k] == layout[k] {
      if 0 < k {
        assert full[k] == text[k - 1];
      }
    }
  }

  /** The rows of `m` after the header show `sorted`, one variant per row. */
  ghost predicate ShowsRows(m: seq<seq<string>>, sorted: seq<VariantQuirks>) {
    |m| == |sorted| + 2 && forall i :: 0 <= i < |sorted| ==> m[i + 1] == DisplayRow(sorted[i])
  }

  lemma RowsHaveTwoCells(m: seq<seq<string>>, sorted: seq<VariantQuirks>)
    requires ShowsRows(m, sorted) && |m[0]| == 2 && |m[|sorted| + 1]| == 2
    ensures forall i :: 0 <= i < |m| ==> |m[i]| == 2
  {
    forall i | 1 <= i <= |sorted| ensures |m[i]| == 2 {
      assert m[(i - 1) + 1] == DisplayRow(sorted[i - 1]);
    }
  }

  lemma SortedRowsAscend(m: seq<seq<string>>, sorted: seq<VariantQuirks>)
    requires ShowsRows(m, sorted) && Sorting.StrictlyAscending(sorted, VariantOf)
    requires forall i :: 0 <= i < |m| ==> |m[i]| == 2
    ensures forall i, j :: 1 <= i < j <= |sorted| ==> Less(m[i][0], m[j][0])
  {
    forall i, j | 1 <= i < j <= |sorted| ensures Less(m[i][0], m[j][0]) {
      assert m[(i - 1) + 1] == DisplayRow(sorted[i - 1]);
      assert m[(j - 1) + 1] == DisplayRow(sorted[j - 1]);
    }
  }

  lemma RowsArePermutation(m: seq<seq<string>>, sorted: seq<VariantQuirks>, rest: seq<VariantQuirks>)
    requires ShowsRows(m, sorted) && multiset(sorted) == multiset(rest)
    ensures |rest| == |sorted|
    ensures forall i :: 1 <= i <= |rest| ==> exists v :: 0 <= v < |rest| && m[i] == DisplayRow(rest[v])
    ensures forall v :: 0 <= v < |rest| ==> exists i :: 1 <= i <= |rest| && m[i] == DisplayRow(rest[v])
  {
    assert |sorted| == |multiset(sorted)| == |rest|;
    forall i | 1 <= i <= |rest| ensures exists v :: 0 <= v < |rest| && m[i] == DisplayRow(rest[v]) {
      assert sorted[i - 1] in multiset(rest);
      var v :| 0 <= v < |rest| && rest[v] == sorted[i - 1];
      assert m[(i - 1) + 1] == DisplayRow(rest[v]);
    }
    forall v | 0 <= v < |rest| ensures exists i :: 1 <= i <= |rest| && m[i] == DisplayRow(rest[v]) {
      assert rest[v] in multiset(sorted);
      var k :| 0 <= k < |sorted| && sorted[k] == rest[v];
      assert m[k + 1] == DisplayRow(rest[v]);
    }
  }

  /** The second half of `Battlemech._build_matrix`: a header row, one row
      per variant in strictly ascending name order (a dict's keys are
      distinct, so sorting its items compares names only), then the shared
      row; every variant gets exactly one row. */
  function Display(name: string, rest: seq<VariantQuirks>, shared: seq<Quirk>): (matrix: seq<seq<string>>)
    requires Sorting.DistinctKeys(rest, VariantOf)
    ensures |matrix| == |rest| + 2
    ensures matrix[0] == [name, "Quirks"]
    ensures forall i :: 0 <= i < |matrix| ==> |matrix[i]| == 2
    ensures matrix[|rest| + 1] == [SharedLabel, QuirksString(shared)]
    ensures forall i, j :: 1 <= i < j <= |rest| ==> Less(matrix[i][0], matrix[j][0])
    ensures forall i :: 1 <= i <= |rest| ==> exists v :: 0 <= v < |rest| && matrix[i] == DisplayRow(rest[v])
    ensures forall v :: 0 <= v < |rest| ==> exists i :: 1 <= i <= |rest| && matrix[i] == DisplayRow(rest[v])
  {
    var sorted := Sorting.SortBy(rest, VariantOf);
    ConvertedRows(name, sorted, shared);
    var matrix := [[name, "Quirks"]] + ConvertToStrings(CellRows(sorted, shared)).value;
    LayoutRows(name, sorted, shared);
    assert ShowsRows(matrix, sorted);
    RowsHaveTwoCells(matrix, sorted);
    Sorting.SortDistinctIsStrict(rest, VariantOf);
    SortedRowsAscend(matrix, sorted);
    RowsArePermutation(matrix, sorted, rest);
    matrix
  }

  /** Carries the loop's results over to the variant entries. */
  lemma RekeyFacts(entries: seq<VariantQuirks>, lists: seq<seq<Quirk>>, shared: seq<Quirk>)
    requires Sorting.DistinctKeys(entries, VariantOf)
    requires Conserves(QuirkLists(entries), lists, shared)
    requires |entries| > 0 ==> forall q :: !InEvery(lists, q)
    ensures Sorting.DistinctKeys(Rekey(entries, lists), VariantOf)
    ensures forall v :: 0 <= v < |entries| ==> multiset(entries[v].quirks) == multiset(Rekey(entries, lists)[v].quirks) + multiset(shared)
    ensures |entries| > 0 ==> forall q :: !InEvery(QuirkLists(Rekey(entries, lists)), q)
  {
    var rest := Rekey(entries, lists);
    assert QuirkLists(rest) == lists;
    assert forall v :: 0 <= v < |rest| ==> VariantOf(rest[v]) == VariantOf(entries[v]);
    forall v | 0 <= v < |entries|
      ensures multiset(entries[v].quirks) == multiset(rest[v].quirks) + multiset(shared)
    {
      assert QuirkLists(entries)[v] == entries[v].quirks;
    }
  }

  /** The order kept by the loop, and which copies it dropped, carry over
      to the variant entries. */
  lemma RekeyKeepsOrder(entries: seq<VariantQuirks>, lists: seq<seq<Quirk>>, shared: seq<Quirk>)
    requires |lists| == |entries|
    requires forall v :: 0 <= v < |entries| ==> IsSubsequence(lists[v], QuirkLists(entries)[v])
    requires forall v :: 0 <= v < |entries| ==> lists[v] == DropFirstCopies(QuirkLists(entries)[v], multiset(shared))
    ensures forall v :: 0 <= v < |entries| ==> IsSubsequence(Rekey(entries, lists)[v].quirks, entries[v].quirks)
    ensures forall v :: 0 <= v < |entries| ==> Rekey(entries, lists)[v].quirks == DropFirstCopies(entries[v].quirks, multiset(shared))
  {
  }

  /** What the sharing loop leaves: each variant keeps its name, loses
      exactly the shared quirks, namely the first copy of each, and keeps the
      order of the rest; every shared quirk was in every variant, the shared
      quirks are the first copies of the first variant's quirks, in its
      order, and (with at least one variant) no quirk is left in all of
      them. */
  ghost predicate Reduces(entries: seq<VariantQuirks>, rest: seq<VariantQuirks>, shared: seq<Quirk>) {
    && |rest| == |entries| && Sorting.DistinctKeys(rest, VariantOf)
    && (forall v :: 0 <= v < |entries| ==> rest[v].variant == entries[v].variant)
    && (forall v :: 0 <= v < |entries| ==> multiset(entries[v].quirks) == multiset(rest[v].quirks) + multiset(shared))
    && (forall v :: 0 <= v < |entries| ==> IsSubsequence(rest[v].quirks, entries[v].quirks))
    && (forall v :: 0 <= v < |entries| ==> rest[v].quirks == DropFirstCopies(entries[v].quirks, multiset(shared)))
    && (forall q :: q in shared ==> InEvery(QuirkLists(entries), q))
    && (|entries| > 0 ==> IsSubsequence(shared, entries[0].quirks))
    && (|entries| > 0 ==> shared == KeepFirstCopies(entries[0].quirks, multiset(shared)))
    && (|entries| > 0 ==> forall q :: !InEvery(QuirkLists(rest), q))
  }

  /** `Battlemech._build_matrix`: shares the quirks common to all variants,
      then lays out the rows. Each variant keeps its name, loses the first
      copy of each shared quirk and keeps the order of the others; every
      shared quirk was in every variant, and the shared quirks are first
      copies of the first variant's quirks, in its order. */
  method BuildMatrix(name: string, entries: seq<VariantQuirks>)
    returns (matrix: seq<seq<string>>, rest: seq<VariantQuirks>, shared: seq<Quirk>)
    requires Sorting.DistinctKeys(entries, VariantOf)
    ensures |rest| == |entries| && Sorting.DistinctKeys(rest, VariantOf)
    ensures matrix == Display(name, rest, shared)
    ensures forall v :: 0 <= v < |entries| ==> rest[v].variant == entries[v].variant
    ensures forall v :: 0 <= v < |entries| ==> multiset(entries[v].quirks) == multiset(rest[v].quirks) + multiset(shared)
    ensures forall v :: 0 <= v < |entries| ==> IsSubsequence(rest[v].quirks, entries[v].quirks)
    ensures forall v :: 0 <= v < |entries| ==> rest[v].quirks == DropFirstCopies(entries[v].quirks, multiset(shared))
    ensures forall q :: q in shared ==> InEvery(QuirkLists(entries), q)
    ensures |entries| > 0 ==> IsSubsequence(shared, entries[0].quirks)
    ensures |entries| > 0 ==> shared == KeepFirstCopies(entries[0].quirks, multiset(shared))
    ensures |entries| > 0 ==> forall q :: !InEvery(QuirkLists(rest), q)
  {
    var lists, sh := ShareAcrossVariants(QuirkLists(entries));
    RekeyFacts(entries, lists, sh);
    RekeyKeepsOrder(entries, lists, sh);
    rest, shared := Rekey(entries, lists), sh;
    assert |entries| > 0 ==> QuirkLists(entries)[0] == entries[0].quirks;
    matrix := Display(name, rest, shared);
  }

  /** A constructed battlemech: its upper-cased name, each variant's quirks
      after sharing, the shared quirks and the display matrix. */
  datatype Battlemech = Battlemech(
    name: string,
    variants: seq<VariantQuirks>,
    shared: seq<Quirk>,
    matrix: seq<seq<string>>)

  /** The variant names of a dict's entries, in insertion order. */
  function Keys(d: seq<VariantRecords>): (ks: seq<string>)
    ensures |ks| == |d|
    ensures forall i :: 0 <= i < |d| ==> ks[i] == d[i].variant
  {
    seq(|d|, i requires 0 <= i < |d| => d[i].variant)
  }

  /** Stores a variant's records under its name in a dict held as its
      entries in insertion order: a present key keeps its place and takes the
      new value, a new key goes last. */
  function Assign(d: seq<VariantRecords>, e: VariantRecords): (r: seq<VariantRecords>)
    requires Sorting.DistinctKeys(d, RecordsVariant)
    ensures Sorting.DistinctKeys(r, RecordsVariant)
    ensures Keys(r) == if e.variant in Keys(d) then Keys(d) else Keys(d) + [e.variant]
    ensures e in r
    ensures forall x :: x in r ==> x == e || (x in d && x.variant != e.variant)
  {
    var i := FirstIndex(d, (x: VariantRecords) => x.variant == e.variant);
    if i < |d| then
      assert Keys(d[i := e]) == Keys(d);
      d[i := e]
    else
      assert e.variant !in Keys(d);
      assert Keys(d + [e]) == Keys(d) + [e.variant];
      d + [e]
  }

  /** `raw[j]` is the last entry of `raw` named like `x`, and equals `x`. */
  ghost predicate LastFor(raw: seq<VariantRecords>, x: VariantRecords) {
    exists j :: 0 <= j < |raw| && raw[j] == x && forall k :: j < k < |raw| ==> raw[k].variant != x.variant
  }

  lemma LastForExtends(init: seq<VariantRecords>, e: VariantRecords, x: VariantRecords)
    requires LastFor(init, x) && x.variant != e.variant
    ensures LastFor(init + [e], x)
  {
    var raw := init + [e];
    var j :| 0 <= j < |init| && init[j] == x && forall k :: j < k < |init| ==> init[k].variant != x.variant;
    assert raw[j] == x;
    forall k | j < k < |raw| ensures raw[k].variant != x.variant {
      if k < |init| { assert raw[k] == init[k]; }
    }
  }

  lemma KeysStep(init: seq<VariantRecords>, e: VariantRecords, prev: seq<VariantRecords>)
    requires Sorting.DistinctKeys(prev, RecordsVariant)
    requires Keys(prev) == Dedup(Keys(init))
    ensures Keys(Assign(prev, e)) == Dedup(Keys(init + [e]))
  {
    var ks := Keys(init + [e]);
    assert ks == Keys(init) + [e.variant];
    assert ks[..|ks| - 1] == Keys(init);
  }

  lemma LastStep(init: seq<VariantRecords>, e: VariantRecords, prev: seq<VariantRecords>)
    requires Sorting.DistinctKeys(prev, RecordsVariant)
    requires forall x :: x in prev ==> LastFor(init, x)
    ensures forall x :: x in Assign(prev, e) ==> LastFor(init + [e], x)
  {
    var raw := init + [e];
    forall x | x in Assign(prev, e) ensures LastFor(raw, x) {
      if x == e {
        assert raw[|raw| - 1] == x;
      } else {
        LastForExtends(init, e, x);
      }
    }
  }

  /** Lines 158-159 of `Battlemech.__init__`: the dict comprehension keyed by
      variant name, built by storing each entry in turn. It has each variant
      name of the chassis data exactly once, and a name given more than once
      keeps the records of its last entry; names keep the order in which they
      first appear. */
  function DictOf(raw: seq<VariantRecords>): (d: seq<VariantRecords>)
    ensures Sorting.DistinctKeys(d, RecordsVariant)
    ensures Keys(d) == Dedup(Keys(raw))
    ensures forall n :: n in Keys(d) <==> n in Keys(raw)
    ensures forall x :: x in d ==> LastFor(raw, x)
    decreases |raw|
  {
    if |raw| == 0 then []
    else
      var init := raw[..|raw| - 1];
      var e := raw[|raw| - 1];
      assert raw == init + [e];
      KeysStep(init, e, DictOf(init));
      LastStep(init, e, DictOf(init));
      Assign(DictOf(init), e)
  }

  /** Two dicts with the same names have the same number of entries. */
  lemma SameNamesSameCount(raw: seq<VariantRecords>, d: seq<VariantRecords>)
    requires Sorting.DistinctKeys(d, RecordsVariant)
    requires forall n :: n in Keys(d) <==> n in Keys(raw)
    ensures |d| == |(set n | n in Keys(raw))|
  {
    DistinctKeyCount(d);
    assert (set n | n in Keys(d)) == (set n | n in Keys(raw));
  }

  /** Lines 158-161 of `Battlemech.__init__`: every variant's records become
      quirks, sorted by name, in dict order; the first record whose value is
      not a number ends construction. */
  function MakeVariants(raw: seq<VariantRecords>, percent: string -> Option<string>): (r: Result<seq<VariantQuirks>, QuirkError>)
    ensures r.Ok? <==> forall v :: 0 <= v < |raw| ==> MakeQuirks(raw[v].records, percent).Ok?
    ensures r.Ok? ==> |r.value| == |raw|
    ensures r.Ok? ==> forall v :: 0 <= v < |raw| ==> r.value[v].variant == raw[v].variant
    ensures r.Ok? ==> forall v :: 0 <= v < |raw| ==>
      r.value[v].quirks == SortQuirks(MakeQuirks(raw[v].records, percent).value)
    ensures r.Ok? ==> forall v :: 0 <= v < |raw| ==>
      var qs := MakeQuirks(raw[v].records, percent).value;
      && multiset(r.value[v].quirks) == multiset(qs)
      && Sorting.SortedBy(r.value[v].quirks, NameOf)
      && forall n :: Sorting.WithKey(r.value[v].quirks, NameOf, n) == Sorting.WithKey(qs, NameOf, n)
    ensures r.Err? ==> exists v :: 0 <= v < |raw| && MakeQuirks(raw[v].records, percent) == Err(r.error)
                                  && forall w :: 0 <= w < v ==> MakeQuirks(raw[w].records, percent).Ok?
  {
    var v := FirstIndex(raw, (e: VariantRecords) => MakeQuirks(e.records, percent).Err?);
    if v < |raw| then Err(MakeQuirks(raw[v].records, percent).error)
    else Ok(seq(|raw|, w requires 0 <= w < |raw| =>
              VariantQuirks(raw[w].variant, SortQuirks(MakeQuirks(raw[w].records, percent).value))))
  }

  lemma VariantsKeepKeys(raw: seq<VariantRecords>, entries: seq<VariantQuirks>)
    requires Sorting.DistinctKeys(raw, RecordsVariant)
    requires |entries| == |raw| && forall v :: 0 <= v < |raw| ==> entries[v].variant == raw[v].variant
    ensures Sorting.DistinctKeys(entries, VariantOf)
  {
    assert forall v :: 0 <= v < |entries| ==> VariantOf(entries[v]) == RecordsVariant(raw[v]);
  }

  /** A dict has as many entries as distinct names. */
  lemma {:induction false} DistinctKeyCount(d: seq<VariantRecords>)
    requires Sorting.DistinctKeys(d, RecordsVariant)
    ensures |(set n | n in Keys(d))| == |d|
    decreases |d|
  {
    if |d| > 0 {
      var init := d[..|d| - 1];
      var k := d[|d| - 1].variant;
      assert Sorting.DistinctKeys(init, RecordsVariant) by {
        assert forall i :: 0 <= i < |init| ==> init[i] == d[i];
      }
      DistinctKeyCount(init);
      assert Keys(d) == Keys(init) + [k];
      assert k !in Keys(init) by {
        forall i | 0 <= i < |init| ensures Keys(init)[i] != k {
          assert RecordsVariant(d[i]) != RecordsVariant(d[|d| - 1]);
        }
      }
      assert (set n | n in Keys(d)) == (set n | n in Keys(init)) + {k};
    }
  }

  /** What a battlemech built from the dict `d` is: it exists exactly when
      every variant's quirks convert, and otherwise the error is that of the
      first variant, in dict order, that fails; a built mech has the
      upper-cased name, the header `[name, "Quirks"]`, one two-cell row per
      variant and the shared row showing its shared quirks. */
  ghost predicate BuiltFrom(r: Result<Battlemech, QuirkError>, d: seq<VariantRecords>, name: string,
                            upper: string -> string, percent: string -> Option<string>)
  {
    && (r.Ok? <==> forall v :: 0 <= v < |d| ==> MakeQuirks(d[v].records, percent).Ok?)
    && (r.Err? ==> exists v :: 0 <= v < |d| && MakeQuirks(d[v].records, percent) == Err(r.error)
                               && forall w :: 0 <= w < v ==> MakeQuirks(d[w].records, percent).Ok?)
    && (r.Ok? ==> r.value.name == upper(name))
    && (r.Ok? ==> |r.value.matrix| == |d| + 2 && r.value.matrix[0] == [upper(name), "Quirks"])
    && (r.Ok? ==> r.value.matrix[|d| + 1] == [SharedLabel, QuirksString(r.value.shared)])
    && (r.Ok? ==> forall i :: 0 <= i < |r.value.matrix| ==> |r.value.matrix[i]| == 2)
  }

  /** A built mech's variants and shared quirks are what the sharing loop
      leaves of the dict's converted, sorted variants, and its matrix is
      their display under the upper-cased name. */
  ghost predicate ShowsReduction(r: Result<Battlemech, QuirkError>, d: seq<VariantRecords>, name: string,
                                 upper: string -> string, percent: string -> Option<string>)
  {
    r.Ok? ==> MakeVariants(d, percent).Ok?
              && Reduces(MakeVariants(d, percent).value, r.value.variants, r.value.shared)
              && r.value.matrix == Display(upper(name), r.value.variants, r.value.shared)
  }

  /** Lines 157 and 160-162 of `Battlemech.__init__`, once the dict is built:
      upper-cases the name (`upper` stands for Python's `str.upper`), converts
      and sorts each variant's quirks and builds the matrix. */
  method FromDict(name: string, d: seq<VariantRecords>, upper: string -> string, percent: string -> Option<string>)
    returns (r: Result<Battlemech, QuirkError>)
    requires Sorting.DistinctKeys(d, RecordsVariant)
    ensures BuiltFrom(r, d, name, upper, percent)
    ensures ShowsReduction(r, d, name, upper, percent)
  {
    match MakeVariants(d, percent)
    case Err(e) =>
      r := Err(e);
    case Ok(entries) =>
      var b := BuildFromEntries(name, d, upper, percent, entries);
      r := Ok(b);
  }

  /** The rest of `FromDict` once every variant's quirks have converted:
      shares the quirks and lays out the matrix under the upper-cased name. */
  method BuildFromEntries(name: string, d: seq<VariantRecords>, upper: string -> string,
                          percent: string -> Option<string>, entries: seq<VariantQuirks>)
    returns (b: Battlemech)
    requires Sorting.DistinctKeys(d, RecordsVariant)
    requires MakeVariants(d, percent) == Ok(entries)
    ensures BuiltFrom(Ok(b), d, name, upper, percent)
    ensures ShowsReduction(Ok(b), d, name, upper, percent)
  {
    VariantsKeepKeys(d, entries);
    var matrix, rest, shared := BuildMatrix(upper(name), entries);
    b := Battlemech(upper(name), rest, shared, matrix);
    BuiltFromReduction(d, name, upper, percent, entries, b);
  }

  /** A mech holding the sharing loop's result on the converted variants,
      and its display, is built from the dict. */
  lemma BuiltFromReduction(d: seq<VariantRecords>, name: string, upper: string -> string,
                           percent: string -> Option<string>, entries: seq<VariantQuirks>, b: Battlemech)
    requires MakeVariants(d, percent) == Ok(entries)
    requires b.name == upper(name)
    requires Reduces(entries, b.variants, b.shared)
    requires b.matrix == Display(upper(name), b.variants, b.shared)
    ensures BuiltFrom(Ok(b), d, name, upper, percent)
    ensures ShowsReduction(Ok(b), d, name, upper, percent)
  {
  }

  /** `Battlemech.__init__`: collects the chassis data into a dict by variant
      name, then builds the mech from it; there is one row per distinct
      variant name. */
  method NewBattlemech(name: string, raw: seq<VariantRecords>, upper: string -> string, percent: string -> Option<string>)
    returns (r: Result<Battlemech, QuirkError>)
    ensures BuiltFrom(r, DictOf(raw), name, upper, percent)
    ensures ShowsReduction(r, DictOf(raw), name, upper, percent)
  {
    r := FromDict(name, DictOf(raw), upper, percent);
  }

  /** The table has one row per distinct variant name of the chassis data. */
  lemma DictOfSize(raw: seq<VariantRecords>)
    ensures |DictOf(raw)| == |(set n | n in Keys(raw))|
  {
    SameNamesSameCount(raw, DictOf(raw));
  }
}

=== FILE: components.dfy ===
/**
 * `Component`: the eight fixed body locations of a mech, in the order that
 * fixes the column order of an omnimech's table, with their display labels.
 */
module Components {
  import opened Results
  import opened Text

  datatype Component = Hd | Ra | Rt | Ct | Lt | La | Rl | Ll

  /** Iteration order of the enum (Python's `for component in Component`). */
  const AllComponents: seq<Component> := [Hd, Ra, Rt, Ct, Lt, La, Rl, Ll]

  /** The enum member's value, the name used in the pod records. */
  function Value(c: Component): string {
    match c
    case Hd => "head"
    case Ra => "right_arm"
    case Rt => "right_torso"
    case Ct => "centre_torso"
    case Lt => "left_torso"
    case La => "left_arm"
    case Rl => "right_leg"
    case Ll => "left_leg"
  }

  /** Python's `Component.__str__`, the column heading. */
  function Label(c: Component): string {
    match c
    case Hd => "Head"
    case Ra => "Right Arm"
    case Rt => "Right Torso"
    case Ct => "Center Torso"
    case Lt => "Left Torso"
    case La => "Left Arm"
    case Rl => "Right Leg"
    case Ll => "Left Leg"
  }

  /** Python's `Component(name)`: the member with that value, or `None` where
      Python raises `ValueError`. */
  function Parse(name: string): (r: Option<Component>)
    ensures r.Some? ==> Value(r.value) == name
    ensures r.None? ==> forall c :: Value(c) != name
  {
    if name == "head" then Some(Hd)
    else if name == "right_arm" then Some(Ra)
    else if name == "right_torso" then Some(Rt)
    else if name == "centre_torso" then Some(Ct)
    else if name == "left_torso" then Some(Lt)
    else if name == "left_arm" then Some(La)
    else if name == "right_leg" then Some(Rl)
    else if name == "left_leg" then Some(Ll)
    else None
  }

  /** Every component is listed exactly once, and its value parses back to it. */
  lemma ComponentsEnumerated()
    ensures |AllComponents| == 8
    ensures forall c :: c in AllComponents
    ensures forall i, j :: 0 <= i < j < |AllComponents| ==> AllComponents[i] != AllComponents[j]
    ensures forall c :: Parse(Value(c)) == Some(c)
  {
    forall c ensures c in AllComponents && Parse(Value(c)) == Some(c) {
      match c
      case Hd => case Ra => case Rt => case Ct => case Lt => case La => case Rl => case Ll =>
    }
  }

  /** A lower-case ASCII word. */
  predicate IsWord(w: string) {
    |w| > 0 && forall i :: 0 <= i < |w| ==> IsLower(w[i])
  }

  /** Title-casing a single lower-case word upper-cases its first letter. */
  lemma TitleOfWord(w: string)
    requires IsWord(w)
    ensures Title(ReplaceChar(w, '_', ' ')) == [ToUpper(w[0])] + w[1..]
  {
  }

  /** Joining two words with `_`, turning `_` into a space and title-casing
      the result capitalises each word. */
  lemma TitleOfTwoWords(a: string, b: string)
    requires IsWord(a) && IsWord(b)
    ensures Title(ReplaceChar(a + "_" + b, '_', ' '))
         == [ToUpper(a[0])] + a[1..] + " " + [ToUpper(b[0])] + b[1..]
  {
    SpacedWords(a, b);
    var s := a + " " + b;
    var t := Title(s);
    var u := [ToUpper(a[0])] + a[1..] + " " + [ToUpper(b[0])] + b[1..];
    forall i | 0 <= i < |s|
      ensures t[i] == u[i]
    {
      if i < |a| {
        assert s[i] == a[i] && u[i] == if i == 0 then ToUpper(a[0]) else a[i];
        if i > 0 {
          assert s[i - 1] == a[i - 1];
        }
      } else if i == |a| {
        assert s[i] == ' ' && u[i] == ' ';
      } else {
        assert s[i] == b[i - |a| - 1];
        assert u[i] == if i == |a| + 1 then ToUpper(b[0]) else b[i - |a| - 1];
        if i > |a| + 1 {
          assert s[i - 1] == b[i - |a| - 2];
        }
      }
    }
  }

  /** Turning `_` into a space in two words joined by `_` joins them by a space. */
  lemma SpacedWords(a: string, b: string)
    requires IsWord(a) && IsWord(b)
    ensures ReplaceChar(a + "_" + b, '_', ' ') == a + " " + b
  {
    var s := a + "_" + b;
    forall i | 0 <= i < |s|
      ensures ReplaceChar(s, '_', ' ')[i] == (a + " " + b)[i]
    {
      if i > |a| {
        assert s[i] == b[i - |a| - 1];
      }
    }
  }

  /** The first and second word of a two-word component value. */
  function Words(c: Component): (string, string)
    requires c != Hd
  {
    match c
    case Ra => ("right", "arm")
    case Rt => ("right", "torso")
    case Ct => ("centre", "torso")
    case Lt => ("left", "torso")
    case La => ("left", "arm")
    case Rl => ("right", "leg")
    case Ll => ("left", "leg")
  }

  /** The two-word facts for one component, checked on its literals. */
  ghost predicate TwoWordFacts(c: Component)
    requires c != Hd
  {
    && IsWord(Words(c).0) && IsWord(Words(c).1)
    && Value(c) == Words(c).0 + "_" + Words(c).1
    && (c != Ct ==> Label(c) == [ToUpper(Words(c).0[0])] + Words(c).0[1..] + " "
                               + [ToUpper(Words(c).1[0])] + Words(c).1[1..])
  }

  lemma ArmWords(c: Component)
    requires c == Ra || c == La
    ensures TwoWordFacts(c)
  {
  }

  lemma SideTorsoWords(c: Component)
    requires c == Rt || c == Lt
    ensures TwoWordFacts(c)
  {
    if c == Rt {
      RightTorsoWords();
    } else {
      LeftTorsoWords();
    }
  }

  lemma RightTorsoWords()
    ensures TwoWordFacts(Rt)
  {
  }

  lemma LeftTorsoWords()
    ensures TwoWordFacts(Lt)
  {
  }

  lemma LegWords(c: Component)
    requires c == Rl || c == Ll
    ensures TwoWordFacts(c)
  {
  }

  lemma CentreTorsoWords()
    ensures TwoWordFacts(Ct)
  {
  }

  /** Every value but the head's is two words joined by `_`, and (apart from the
      centre torso) the label is those words capitalised and joined by a space. */
  lemma TwoWordValue(c: Component)
    requires c != Hd
    ensures TwoWordFacts(c)
  {
    match c
    case Ra | La => ArmWords(c);
    case Rt | Lt => SideTorsoWords(c);
    case Rl | Ll => LegWords(c);
    case Ct => CentreTorsoWords();
  }

  /** Apart from the centre torso, the label is the value with `_` turned
      into a space and title-cased. */
  lemma LabelIsTitledValue(c: Component)
    requires c != Ct
    ensures Label(c) == Title(ReplaceChar(Value(c), '_', ' '))
  {
    if c == Hd {
      TitleOfWord("head");
    } else {
      TwoWordValue(c);
      TitleOfTwoWords(Words(c).0, Words(c).1);
    }
  }

  /** The centre torso is the one exception: title-casing its value gives
      "Centre Torso", while its label is spelt "Center Torso". */
  lemma CentreTorsoLabel()
    ensures Title(ReplaceChar(Value(Ct), '_', ' ')) == "Centre Torso"
    ensures Label(Ct) != Title(ReplaceChar(Value(Ct), '_', ' '))
  {
    TwoWordValue(Ct);
    TitleOfTwoWords("centre", "torso");
    assert Label(Ct)[4] != "Centre Torso"[4];
  }
}

=== FILE: mechs.dfy ===
/**
 * `Mech`: the conversion shared by both kinds of mech, from a matrix of
 * cells (pods, lists of quirks, strings) to a matrix of display strings.
 */
module Mechs {
  import opened Results
  import opened Text
  import opened Quirks
  import opened Omnipods

  /** A matrix cell before conversion. `Foreign` stands for any other Python
      object, which the conversion rejects. */
  datatype Cell =
    | PodCell(pod: Omnipod)
    | ListCell(quirks: seq<Quirk>)
    | TextCell(text: string)
    | Foreign(typeName: string)

  /** The exception raised for a cell of an unexpected type, naming that type. */
  datatype CellError = UnexpectedCellType(typeName: string)

  /** The row label of the shared row. */
  const SharedLabel: string := "<b>SHARED</b>"

  /** The text shown for a cell without quirks. */
  const Placeholder: string := "--"

  /** One line of a quirk list: the name, a colon and a space, then the value. */
  function QuirkLine(q: Quirk): string {
    q.name + ": " + q.value
  }

  /** `Mech._quirks_string`: one `name: value` line per quirk joined by
      newlines, or the placeholder when there are none. The placeholder is
      never the rendering of a non-empty list, since every line holds ": ". */
  function QuirksString(qs: seq<Quirk>): (s: string)
    ensures s == Placeholder <==> |qs| == 0
    ensures |qs| > 0 ==> |QuirkLine(qs[0])| <= |s| && s[..|QuirkLine(qs[0])|] == QuirkLine(qs[0])
  {
    if |qs| == 0 then Placeholder
    else
      var lines := seq(|qs|, i requires 0 <= i < |qs| => QuirkLine(qs[i]));
      var s := Join("\n", lines);
      assert s[|qs[0].name|] == ':' by {
        assert s[..|lines[0]|] == lines[0];
        assert lines[0][|qs[0].name|] == ':';
      }
      s
  }

  /** The rendering read line by line: the first quirk's line, then, when
      more quirks follow, a newline and the rendering of the rest. */
  lemma QuirksStringLines(qs: seq<Quirk>)
    ensures |qs| == 1 ==> QuirksString(qs) == QuirkLine(qs[0])
    ensures |qs| > 1 ==> QuirksString(qs) == QuirkLine(qs[0]) + "\n" + QuirksString(qs[1..])
  {
    if |qs| > 1 {
      var lines := seq(|qs|, i requires 0 <= i < |qs| => QuirkLine(qs[i]));
      assert lines[1..] == seq(|qs| - 1, i requires 0 <= i < |qs| - 1 => QuirkLine(qs[1..][i]));
    }
  }

  /** One cell of `_convert_quirks_to_strings`. */
  function CellText(c: Cell): Result<string, CellError> {
    match c
    case PodCell(p) => Ok(QuirksString(p.quirks))
    case ListCell(qs) => Ok(QuirksString(qs))
    case TextCell(t) => Ok(t)
    case Foreign(n) => Err(UnexpectedCellType(n))
  }

  /** The cell holds something the conversion accepts. */
  predicate Convertible(c: Cell) {
    !c.Foreign?
  }

  /** One row of `_convert_quirks_to_strings`. */
  function ConvertRow(row: seq<Cell>): (r: Result<seq<string>, CellError>)
    ensures r.Ok? <==> forall j :: 0 <= j < |row| ==> Convertible(row[j])
    ensures r.Ok? ==> |r.value| == |row| && forall j :: 0 <= j < |row| ==> Ok(r.value[j]) == CellText(row[j])
    ensures r.Err? ==> exists j :: 0 <= j < |row| && row[j].Foreign? && r.error == UnexpectedCellType(row[j].typeName)
  {
    if |row| == 0 then Ok([])
    else
      match CellText(row[0])
      case Err(e) => Err(e)
      case Ok(t) =>
        match ConvertRow(row[1..])
        case Err(e) =>
          assert exists j :: 0 <= j < |row| && row[j].Foreign? && e == UnexpectedCellType(row[j].typeName) by {
            var j :| 0 <= j < |row[1..]| && row[1..][j].Foreign? && e == UnexpectedCellType(row[1..][j].typeName);
            assert row[j + 1] == row[1..][j];
          }
          Err(e)
        case Ok(rest) =>
          assert forall j :: 1 <= j < |row| ==> row[j] == row[1..][j - 1];
          Ok([t] + rest)
  }

  /** `Mech._convert_quirks_to_strings`: keeps the matrix shape and converts
      each cell; any cell of another type is an error. */
  function ConvertToStrings(m: seq<seq<Cell>>): (r: Result<seq<seq<string>>, CellError>)
    ensures r.Ok? <==> forall i, j :: 0 <= i < |m| && 0 <= j < |m[i]| ==> Convertible(m[i][j])
    ensures r.Ok? ==> |r.value| == |m|
    ensures r.Ok? ==> forall i :: 0 <= i < |m| ==> |r.value[i]| == |m[i]|
    ensures r.Ok? ==> forall i, j :: 0 <= i < |m| && 0 <= j < |m[i]| ==> Ok(r.value[i][j]) == CellText(m[i][j])
    ensures r.Err? ==> exists i, j :: 0 <= i < |m| && 0 <= j < |m[i]| && m[i][j].Foreign?
                                   && r.error == UnexpectedCellType(m[i][j].typeName)
  {
    if |m| == 0 then Ok([])
    else
      match ConvertRow(m[0])
      case Err(e) => Err(e)
      case Ok(row) =>
        match ConvertToStrings(m[1..])
        case Err(e) =>
          assert exists i, j :: 0 <= i < |m| && 0 <= j < |m[i]| && m[i][j].Foreign?
                              && e == UnexpectedCellType(m[i][j].typeName) by {
            var i, j :| 0 <= i < |m[1..]| && 0 <= j < |m[1..][i]| && m[1..][i][j].Foreign?
                        && e == UnexpectedCellType(m[1..][i][j].typeName);
            assert m[i + 1] == m[1..][i];
          }
          Err(e)
        case Ok(rest) =>
          assert forall i :: 1 <= i < |m| ==> m[i] == m[1..][i - 1];
          Ok([row] + rest)
  }
}

=== FILE: omnimechs.dfy ===
/**
 * `Omnimech`: one omnipod per (variant, component); quirks present in every
 * pod of a component column are moved to that column's shared cell.
 */
module Omnimechs {
  import opened Results
  import opened Text
  import opened Seqs
  import Sorting
  import opened Quirks
  import opened Components
  import opened Omnipods
  import opened Mechs

  /** Construction failures of an omnimech. */
  datatype OmniError =
    | MissingPod(variant: string, component: Component)
    | BadPod(error: PodError)

  /** The pod belongs to this variant and fills this component slot. */
  predicate Fits(p: Omnipod, variant: string, c: Component) {
    p.variant == variant && p.component == c
  }

  /** `Omnimech._find_pod`: the first pod of the variant for the component;
      `None` where Python's `next` raises `StopIteration`. */
  function FindPod(pods: seq<Omnipod>, variant: string, c: Component): (r: Option<Omnipod>)
    ensures r.None? <==> forall k :: 0 <= k < |pods| ==> !Fits(pods[k], variant, c)
    ensures r.Some? ==> exists k :: 0 <= k < |pods| && pods[k] == r.value && Fits(r.value, variant, c)
                                   && forall j :: 0 <= j < k ==> !Fits(pods[j], variant, c)
  {
    if |pods| == 0 then None
    else if Fits(pods[0], variant, c) then Some(pods[0])
    else
      var r := FindPod(pods[1..], variant, c);
      assert forall k :: 1 <= k < |pods| ==> pods[k] == pods[1..][k - 1];
      assert r.Some? ==> exists k :: 0 <= k < |pods| && pods[k] == r.value && Fits(r.value, variant, c)
                                    && forall j :: 0 <= j < k ==> !Fits(pods[j], variant, c) by {
        if r.Some? {
          var k :| 0 <= k < |pods[1..]| && pods[1..][k] == r.value
                   && forall j :: 0 <= j < k ==> !Fits(pods[1..][j], variant, c);
          assert forall j :: 0 <= j < k + 1 ==> !Fits(pods[j], variant, c) by {
            forall j | 0 < j < k + 1 ensures !Fits(pods[j], variant, c) {
              assert pods[j] == pods[1..][j - 1];
            }
          }
        }
      }
      r
  }

  function VariantNames(pods: seq<Omnipod>): (r: seq<string>)
    ensures |r| == |pods|
    ensures forall k :: 0 <= k < |pods| ==> r[k] == pods[k].variant
  {
    seq(|pods|, k requires 0 <= k < |pods| => pods[k].variant)
  }

  function Identity(s: string): string { s }

  /** The sorted set of the pods' variant names: every variant
      that has a pod, each once, in strictly ascending order (which fixes the
      list whatever order the set is enumerated in). */
  function Variants(pods: seq<Omnipod>): (r: seq<string>)
    ensures forall v :: v in r <==> exists k :: 0 <= k < |pods| && pods[k].variant == v
    ensures Sorting.StrictlyAscending(r, Identity)
  {
    var names := Dedup(VariantNames(pods));
    Sorting.SortDistinctIsStrict(names, Identity);
    var r := Sorting.SortBy(names, Identity);
    forall v ensures v in r <==> exists k :: 0 <= k < |pods| && pods[k].variant == v {
      assert v in r <==> v in multiset(names);
      if v in VariantNames(pods) {
        var k :| 0 <= k < |pods| && VariantNames(pods)[k] == v;
        assert pods[k].variant == v;
      }
    }
    r
  }

  /** The pod `_find_pod` returns for each component of `cs`, in order;
      fails on the first component without a pod. */
  function PodsFor(pods: seq<Omnipod>, variant: string, cs: seq<Component>): (r: Result<seq<Omnipod>, OmniError>)
    ensures r.Ok? <==> forall i :: 0 <= i < |cs| ==> FindPod(pods, variant, cs[i]).Some?
    ensures r.Ok? ==> |r.value| == |cs| && forall i :: 0 <= i < |cs| ==> Some(r.value[i]) == FindPod(pods, variant, cs[i])
    ensures r.Err? ==> exists i :: 0 <= i < |cs| && FindPod(pods, variant, cs[i]).None?
                                  && r.error == MissingPod(variant, cs[i])
                                  && forall j :: 0 <= j < i ==> FindPod(pods, variant, cs[j]).Some?
  {
    var i := FirstIndex(cs, (c: Component) => FindPod(pods, variant, c).None?);
    if i < |cs| then Err(MissingPod(variant, cs[i]))
    else Ok(seq(|cs|, j requires 0 <= j < |cs| => FindPod(pods, variant, cs[j]).value))
  }

  /** Every listed variant has a pod for every component. */
  predicate SlotsFilled(pods: seq<Omnipod>, variants: seq<string>) {
    forall p, k :: 0 <= p < |variants| && 0 <= k < |AllComponents| ==>
      FindPod(pods, variants[p], AllComponents[k]).Some?
  }

  /** The rows `_find_pod` yields for each variant, when all exist. */
  function GridRows(pods: seq<Omnipod>, variants: seq<string>): (g: seq<seq<Omnipod>>)
    requires forall w :: 0 <= w < |variants| ==> PodsFor(pods, variants[w], AllComponents).Ok?
    ensures SlotsFilled(pods, variants)
    ensures |g| == |variants|
    ensures forall v :: 0 <= v < |variants| ==> |g[v]| == |AllComponents|
    ensures forall v, i :: 0 <= v < |variants| && 0 <= i < |AllComponents| ==>
              Some(g[v][i]) == FindPod(pods, variants[v], AllComponents[i])
  {
    var g := seq(|variants|, w requires 0 <= w < |variants| => PodsFor(pods, variants[w], AllComponents).value);
    forall w | 0 <= w < |variants|
      ensures |g[w]| == |AllComponents|
      ensures forall i :: 0 <= i < |AllComponents| ==> Some(g[w][i]) == FindPod(pods, variants[w], AllComponents[i])
    {
      assert PodsFor(pods, variants[w], AllComponents).Ok?;
    }
    g
  }

  lemma MissingRow(pods: seq<Omnipod>, variants: seq<string>, v: nat)
    requires v < |variants| && PodsFor(pods, variants[v], AllComponents).Err?
    ensures !SlotsFilled(pods, variants)
    ensures var e := PodsFor(pods, variants[v], AllComponents).error;
            e.MissingPod? && e.variant == variants[v] && FindPod(pods, e.variant, e.component).None?
  {
    var i :| 0 <= i < |AllComponents| && FindPod(pods, variants[v], AllComponents[i]).None?
             && PodsFor(pods, variants[v], AllComponents).error == MissingPod(variants[v], AllComponents[i]);
  }

  /** The first loop of `Omnimech._build_matrix`: one row of pods per
      variant, in the given order; fails on the first missing pod. */
  function Grid(pods: seq<Omnipod>, variants: seq<string>): (r: Result<seq<seq<Omnipod>>, OmniError>)
    ensures r.Ok? <==> SlotsFilled(pods, variants)
    ensures r.Ok? ==> |r.value| == |variants|
    ensures r.Ok? ==> forall v :: 0 <= v < |variants| ==> |r.value[v]| == |AllComponents|
    ensures r.Ok? ==> forall v, i :: 0 <= v < |variants| && 0 <= i < |AllComponents| ==>
                        Some(r.value[v][i]) == FindPod(pods, variants[v], AllComponents[i])
    ensures r.Err? ==> r.error.MissingPod? && r.error.variant in variants
                       && FindPod(pods, r.error.variant, r.error.component).None?
  {
    var v := FirstIndex(variants, (x: string) => PodsFor(pods, x, AllComponents).Err?);
    if v < |variants| then
      MissingRow(pods, variants, v);
      Err(PodsFor(pods, variants[v], AllComponents).error)
    else
      Ok(GridRows(pods, variants))
  }

  /** A name containing `HARDPOINTS` marks the synthetic hardpoint quirk,
      which carries markup and is never shared. */
  predicate IsHardpoints(q: Quirk) {
    Contains(q.name, "HARDPOINTS")
  }

  /** What is left of each pod's quirks in a column, and the column's shared cell. */
  datatype Reduced = Reduced(rest: seq<seq<Quirk>>, shared: seq<Quirk>)

  /** Lines 208-219 before sorting: the quirks other than the hardpoint
      quirk found in every pod of the column, once each. Python enumerates a
      set here; this takes the order of first appearance. */
  function Common(col: seq<seq<Quirk>>): (r: seq<Quirk>)
    ensures forall q :: q in r <==> |col| > 0 && InEvery(col, q) && !IsHardpoints(q)
    ensures forall q :: multiset(r)[q] <= 1
  {
    var candidates := Dedup(Filter(Flatten(col), q => !IsHardpoints(q)));
    var r := Filter(candidates, q => InEvery(col, q));
    forall q | |col| > 0 && InEvery(col, q) && !IsHardpoints(q) ensures q in r {
      assert q in col[0];
    }
    forall q ensures multiset(r)[q] <= 1 {
      assert multiset(candidates)[q] <= 1;
    }
    r
  }

  /** Lines 223-226 for the pods of one column: every occurrence of a shared
      quirk is dropped, the others keep their order. */
  function Unshared(col: seq<seq<Quirk>>, shared: seq<Quirk>): (rest: seq<seq<Quirk>>)
    ensures |rest| == |col|
    ensures forall p, q :: 0 <= p < |col| ==>
              multiset(rest[p])[q] == if q in shared then 0 else multiset(col[p])[q]
    ensures forall p :: 0 <= p < |col| ==> IsSubsequence(rest[p], col[p])
  {
    seq(|col|, p requires 0 <= p < |col| => Filter(col[p], q => q !in shared))
  }

  /** One iteration of the column loop of `Omnimech._build_matrix`: the
      shared cell holds, once each and sorted by name, exactly the quirks
      other than the hardpoint quirk found in every pod of the column; every
      occurrence of them is filtered out of every pod, the rest keeping their
      order. */
  function ReduceColumn(col: seq<seq<Quirk>>): (r: Reduced)
    ensures |r.rest| == |col|
    ensures forall q :: q in r.shared <==> |col| > 0 && InEvery(col, q) && !IsHardpoints(q)
    ensures Sorting.SortedBy(r.shared, NameOf)
    ensures forall q :: multiset(r.shared)[q] <= 1
    ensures forall p, q :: 0 <= p < |col| ==>
              multiset(r.rest[p])[q] == if q in r.shared then 0 else multiset(col[p])[q]
    ensures forall p :: 0 <= p < |col| ==> IsSubsequence(r.rest[p], col[p])
  {
    var common := Common(col);
    var shared := SortQuirks(common);
    assert forall q :: q in shared <==> q in multiset(common);
    Reduced(Unshared(col, shared), shared)
  }

  /** Column `k` of the grid: the quirks of each variant's pod in that slot. */
  function Column(grid: seq<seq<Omnipod>>, k: nat): (col: seq<seq<Quirk>>)
    requires forall p :: 0 <= p < |grid| ==> k < |grid[p]|
    ensures |col| == |grid|
    ensures forall p :: 0 <= p < |grid| ==> col[p] == grid[p][k].quirks
  {
    seq(|grid|, p requires 0 <= p < |grid| => grid[p][k].quirks)
  }

  /** Every row holds one pod per component. */
  predicate FullRows(grid: seq<seq<Omnipod>>) {
    forall p :: 0 <= p < |grid| ==> |grid[p]| == |AllComponents|
  }

  /** The grid after the column loop and the shared cells it produced. */
  datatype GridReduction = GridReduction(pods: seq<seq<Omnipod>>, sharedCells: seq<seq<Quirk>>)

  /** The whole column loop: each column is reduced on its own, so what a
      column's pods and shared cell become depends on that column alone.
      Transposing a matrix with no rows gives no columns, so a grid without
      variants yields no shared cells. */
  function ReduceGrid(grid: seq<seq<Omnipod>>): (r: GridReduction)
    requires FullRows(grid)
    ensures |r.pods| == |grid| && FullRows(r.pods)
    ensures |r.sharedCells| == if |grid| == 0 then 0 else |AllComponents|
    ensures forall k :: 0 <= k < |r.sharedCells| ==> r.sharedCells[k] == ReduceColumn(Column(grid, k)).shared
    ensures forall p, k :: 0 <= p < |grid| && 0 <= k < |AllComponents| ==>
              r.pods[p][k] == grid[p][k].(quirks := ReduceColumn(Column(grid, k)).rest[p])
  {
    var reductions := seq(|AllComponents|, k requires 0 <= k < |AllComponents| => ReduceColumn(Column(grid, k)));
    var pods := seq(|grid|, p requires 0 <= p < |grid| =>
      seq(|AllComponents|, k requires 0 <= k < |AllComponents| => grid[p][k].(quirks := reductions[k].rest[p])));
    var sharedCells := if |grid| == 0 then [] else seq(|AllComponents|, k requires 0 <= k < |AllComponents| => reductions[k].shared);
    GridReduction(pods, sharedCells)
  }

  /** Columns do not affect each other: two grids that agree on column `k`
      get the same shared cell and the same pod quirks in column `k`. */
  lemma ColumnsIndependent(g1: seq<seq<Omnipod>>, g2: seq<seq<Omnipod>>, k: nat)
    requires FullRows(g1) && FullRows(g2) && |g1| == |g2| > 0 && k < |AllComponents|
    requires Column(g1, k) == Column(g2, k)
    ensures ReduceGrid(g1).sharedCells[k] == ReduceGrid(g2).sharedCells[k]
    ensures forall p :: 0 <= p < |g1| ==> ReduceGrid(g1).pods[p][k].quirks == ReduceGrid(g2).pods[p][k].quirks
  {
  }

  /** The hardpoint quirk stays with its pod: it is never shared. */
  lemma HardpointsNeverShared(grid: seq<seq<Omnipod>>, k: nat, q: Quirk)
    requires FullRows(grid) && k < |ReduceGrid(grid).sharedCells|
    requires IsHardpoints(q)
    ensures q !in ReduceGrid(grid).sharedCells[k]
    ensures forall p :: 0 <= p < |grid| ==>
              multiset(ReduceGrid(grid).pods[p][k].quirks)[q] == multiset(grid[p][k].quirks)[q]
  {
  }

  /** The header row: the mech's name, then each component's label in enum order. */
  function Header(name: string): (h: seq<string>)
    ensures |h| == |AllComponents| + 1 && h[0] == name
    ensures forall k :: 0 <= k < |AllComponents| ==> h[k + 1] == Label(AllComponents[k])
  {
    [name] + seq(|AllComponents|, k requires 0 <= k < |AllComponents| => Label(AllComponents[k]))
  }

  /** A variant's row: its name, then one cell per pod holding that pod's quirks. */
  function PodRowCells(variant: string, row: seq<Omnipod>): seq<Cell> {
    [TextCell(variant)] + seq(|row|, k requires 0 <= k < |row| => PodCell(row[k]))
  }

  /** The shared row: the shared label, then one cell per column holding that
      column's shared quirks. */
  function SharedRowCells(cells: seq<seq<Quirk>>): seq<Cell> {
    [TextCell(SharedLabel)] + seq(|cells|, k requires 0 <= k < |cells| => ListCell(cells[k]))
  }

  /** The matrix before conversion: one row per variant, then the shared row. */
  function OmniCells(variants: seq<string>, grid: seq<seq<Omnipod>>, sharedCells: seq<seq<Quirk>>): seq<seq<Cell>>
    requires |grid| == |variants|
  {
    seq(|variants|, p requires 0 <= p < |variants| => PodRowCells(variants[p], grid[p]))
    + [SharedRowCells(sharedCells)]
  }

  /** The display row of a variant: its name, then each pod's quirks. */
  function PodRowText(variant: string, row: seq<Omnipod>): seq<string> {
    [variant] + seq(|row|, k requires 0 <= k < |row| => QuirksString(row[k].quirks))
  }

  /** The display row of the shared cells. */
  function SharedRowText(cells: seq<seq<Quirk>>): seq<string> {
    [SharedLabel] + seq(|cells|, k requires 0 <= k < |cells| => QuirksString(cells[k]))
  }

  /** The display matrix: header, a row per variant, the shared row. */
  function OmniLayout(name: string, variants: seq<string>, grid: seq<seq<Omnipod>>, sharedCells: seq<seq<Quirk>>): seq<seq<string>>
    requires |grid| == |variants|
  {
    [Header(name)]
    + seq(|variants|, p requires 0 <= p < |variants| => PodRowText(variants[p], grid[p]))
    + [SharedRowText(sharedCells)]
  }

  lemma PodRowConverts(variant: string, row: seq<Omnipod>, text: seq<string>)
    requires |text| == |PodRowCells(variant, row)|
    requires forall j :: 0 <= j < |text| ==> Ok(text[j]) == CellText(PodRowCells(variant, row)[j])
    ensures text == PodRowText(variant, row)
  {
    var cells := PodRowCells(variant, row);
    var want := PodRowText(variant, row);
    forall j | 0 <= j < |text| ensures text[j] == want[j] {
      assert Ok(text[j]) == CellText(cells[j]);
    }
  }

  lemma SharedRowConverts(cells: seq<seq<Quirk>>, text: seq<string>)
    requires |text| == |SharedRowCells(cells)|
    requires forall j :: 0 <= j < |text| ==> Ok(text[j]) == CellText(SharedRowCells(cells)[j])
    ensures text == SharedRowText(cells)
  {
    var row := SharedRowCells(cells);
    var want := SharedRowText(cells);
    forall j | 0 <= j < |text| ensures text[j] == want[j] {
      assert Ok(text[j]) == CellText(row[j]);
    }
  }

  lemma OmniCellsConvert(variants: seq<string>, grid: seq<seq<Omnipod>>, sharedCells: seq<seq<Quirk>>)
    requires |grid| == |variants|
    ensures ConvertToStrings(OmniCells(variants, grid, sharedCells)).Ok?
  {
    var cells := OmniCells(variants, grid, sharedCells);
    forall i, j | 0 <= i < |cells| && 0 <= j < |cells[i]| ensures Convertible(cells[i][j]) {
      if i < |variants| {
        assert cells[i] == PodRowCells(variants[i], grid[i]);
      } else {
        assert cells[i] == SharedRowCells(sharedCells);
      }
    }
  }

  /** Converting the cells and inserting the header yields the layout. */
  lemma OmniConverted(name: string, variants: seq<string>, grid: seq<seq<Omnipod>>, sharedCells: seq<seq<Quirk>>)
    requires |grid| == |variants|
    ensures ConvertToStrings(OmniCells(variants, grid, sharedCells)).Ok?
    ensures [Header(name)] + ConvertToStrings(OmniCells(variants, grid, sharedCells)).value
            == OmniLayout(name, variants, grid, sharedCells)
  {
    OmniCellsConvert(variants, grid, sharedCells);
    var cells := OmniCells(variants, grid, sharedCells);
    var text := ConvertToStrings(cells).value;
    var layout := OmniLayout(name, variants, grid, sharedCells);
    forall i | 0 <= i < |variants| ensures text[i] == layout[i + 1] {
      assert cells[i] == PodRowCells(variants[i], grid[i]);
      PodRowConverts(variants[i], grid[i], text[i]);
    }
    assert cells[|variants|] == SharedRowCells(sharedCells);
    SharedRowConverts(sharedCells, text[|variants|]);
    var full := [Header(name)] + text;
    forall k | 0 <= k < |layout| ensures full[k] == layout[k] {
      if 0 < k {
        assert full[k] == text[k - 1];
      }
    }
  }

  /** The shape of the display matrix: the header, one row of nine cells per
      variant headed by its name, and a shared row of nine cells, or of one
      cell when there are no variants. */
  lemma OmniLayoutShape(name: string, variants: seq<string>, grid: seq<seq<Omnipod>>, sharedCells: seq<seq<Quirk>>)
    requires |grid| == |variants| && FullRows(grid)
    requires |sharedCells| == if |variants| == 0 then 0 else |AllComponents|
    ensures var m := OmniLayout(name, variants, grid, sharedCells);
      |m| == |variants| + 2 && m[0] == Header(name)
      && (forall p :: 1 <= p <= |variants| ==> |m[p]| == |AllComponents| + 1 && m[p][0] == variants[p - 1])
      && m[|variants| + 1][0] == SharedLabel
      && |m[|variants| + 1]| == if |variants| == 0 then 1 else |AllComponents| + 1
  {
    var m := OmniLayout(name, variants, grid, sharedCells);
    forall p | 1 <= p <= |variants| ensures |m[p]| == |AllComponents| + 1 && m[p][0] == variants[p - 1] {
      assert m[p] == PodRowText(variants[p - 1], grid[p - 1]);
    }
  }

  /** A constructed omnimech: its name, its variants, each variant's pods
      after sharing (one per component), the shared cells and the display
      matrix. */
  datatype Omnimech = Omnimech(
    name: string,
    variants: seq<string>,
    grid: seq<seq<Omnipod>>,
    sharedCells: seq<seq<Quirk>>,
    matrix: seq<seq<string>>)

  /** The pod that `_find_pod` returns for slot `k` of variant `v`. */
  function Original(pods: seq<Omnipod>, v: string, k: nat): Omnipod
    requires k < |AllComponents| && FindPod(pods, v, AllComponents[k]).Some?
  {
    FindPod(pods, v, AllComponents[k]).value
  }

  /** What the column loop promises about a grid built from `pods`: every
      slot holds its original pod with the shared quirks filtered out and
      the others in their original order, and
      each shared cell holds, once each and in name order, the quirks other
      than the hardpoint quirk that every variant's pod in that slot has. */
  ghost predicate SharedCorrectly(pods: seq<Omnipod>, variants: seq<string>, grid: seq<seq<Omnipod>>, sharedCells: seq<seq<Quirk>>)
    requires SlotsFilled(pods, variants)
  {
    && |grid| == |variants| && FullRows(grid)
    && |sharedCells| == (if |variants| == 0 then 0 else |AllComponents|)
    && (forall p, k :: 0 <= p < |variants| && 0 <= k < |AllComponents| ==>
          grid[p][k] == Original(pods, variants[p], k).(quirks := grid[p][k].quirks))
    && (forall p, k, q :: 0 <= p < |variants| && 0 <= k < |sharedCells| ==>
          multiset(grid[p][k].quirks)[q]
          == if q in sharedCells[k] then 0 else multiset(Original(pods, variants[p], k).quirks)[q])
    && (forall p, k :: 0 <= p < |variants| && 0 <= k < |AllComponents| ==>
          IsSubsequence(grid[p][k].quirks, Original(pods, variants[p], k).quirks))
    && (forall k, q :: 0 <= k < |sharedCells| ==>
          (q in sharedCells[k] <==>
             !IsHardpoints(q) && forall p :: 0 <= p < |variants| ==> q in Original(pods, variants[p], k).quirks))
    && (forall k :: 0 <= k < |sharedCells| ==> Sorting.SortedBy(sharedCells[k], NameOf))
    && (forall k, q :: 0 <= k < |sharedCells| ==> multiset(sharedCells[k])[q] <= 1)
  }

  /** The originals of column `k` are the column the reduction sees. */
  lemma ColumnOfOriginals(pods: seq<Omnipod>, variants: seq<string>, grid: seq<seq<Omnipod>>, k: nat)
    requires SlotsFilled(pods, variants) && |grid| == |variants| && FullRows(grid) && k < |AllComponents|
    requires forall p, k :: 0 <= p < |variants| && 0 <= k < |AllComponents| ==>
               grid[p][k] == Original(pods, variants[p], k)
    ensures forall p :: 0 <= p < |variants| ==> Column(grid, k)[p] == Original(pods, variants[p], k).quirks
  {
  }

  /** The grid holds, in every slot, the pod `_find_pod` returns. */
  ghost predicate HoldsOriginals(pods: seq<Omnipod>, variants: seq<string>, grid: seq<seq<Omnipod>>) {
    && SlotsFilled(pods, variants) && |grid| == |variants| && FullRows(grid)
    && forall p, k :: 0 <= p < |variants| && 0 <= k < |AllComponents| ==>
         grid[p][k] == Original(pods, variants[p], k)
  }

  lemma SharedCellsOfOriginals(pods: seq<Omnipod>, variants: seq<string>, grid: seq<seq<Omnipod>>)
    requires HoldsOriginals(pods, variants, grid)
    ensures forall k, q :: 0 <= k < |ReduceGrid(grid).sharedCells| ==>
              (q in ReduceGrid(grid).sharedCells[k] <==>
                 !IsHardpoints(q) && forall p :: 0 <= p < |variants| ==> q in Original(pods, variants[p], k).quirks)
  {
    var red := ReduceGrid(grid);
    forall k, q | 0 <= k < |red.sharedCells|
      ensures q in red.sharedCells[k] <==>
                !IsHardpoints(q) && forall p :: 0 <= p < |variants| ==> q in Original(pods, variants[p], k).quirks
    {
      ColumnOfOriginals(pods, variants, grid, k);
    }
  }

  lemma CountsOfOriginals(pods: seq<Omnipod>, variants: seq<string>, grid: seq<seq<Omnipod>>)
    requires HoldsOriginals(pods, variants, grid)
    ensures forall p, k, q :: 0 <= p < |variants| && 0 <= k < |ReduceGrid(grid).sharedCells| ==>
              multiset(ReduceGrid(grid).pods[p][k].quirks)[q]
              == if q in ReduceGrid(grid).sharedCells[k] then 0 else multiset(Original(pods, variants[p], k).quirks)[q]
  {
    var red := ReduceGrid(grid);
    forall p, k, q | 0 <= p < |variants| && 0 <= k < |red.sharedCells|
      ensures multiset(red.pods[p][k].quirks)[q]
              == if q in red.sharedCells[k] then 0 else multiset(Original(pods, variants[p], k).quirks)[q]
    {
      ColumnOfOriginals(pods, variants, grid, k);
    }
  }

  lemma OrderOfOriginals(pods: seq<Omnipod>, variants: seq<string>, grid: seq<seq<Omnipod>>)
    requires HoldsOriginals(pods, variants, grid)
    ensures forall p, k :: 0 <= p < |variants| && 0 <= k < |AllComponents| ==>
              IsSubsequence(ReduceGrid(grid).pods[p][k].quirks, Original(pods, variants[p], k).quirks)
  {
    var red := ReduceGrid(grid);
    forall p, k | 0 <= p < |variants| && 0 <= k < |AllComponents|
      ensures IsSubsequence(red.pods[p][k].quirks, Original(pods, variants[p], k).quirks)
    {
      ColumnOfOriginals(pods, variants, grid, k);
    }
  }

  lemma ReduceGridShares(pods: seq<Omnipod>, variants: seq<string>, grid: seq<seq<Omnipod>>)
    requires HoldsOriginals(pods, variants, grid)
    ensures SharedCorrectly(pods, variants, ReduceGrid(grid).pods, ReduceGrid(grid).sharedCells)
  {
    SharedCellsOfOriginals(pods, variants, grid);
    CountsOfOriginals(pods, variants, grid);
    OrderOfOriginals(pods, variants, grid);
  }

  /** A grid that was built holds the pods `_find_pod` returns. */
  lemma GridHoldsOriginals(pods: seq<Omnipod>, variants: seq<string>, grid: seq<seq<Omnipod>>)
    requires Grid(pods, variants) == Ok(grid)
    ensures HoldsOriginals(pods, variants, grid)
  {
  }

  /** `Omnimech._build_matrix` from the list of pods: fails when a variant
      lacks a pod for some component; otherwise shares per column and lays
      out the matrix. */
  function BuildMatrix(name: string, pods: seq<Omnipod>): (r: Result<Omnimech, OmniError>)
    ensures r.Ok? <==> SlotsFilled(pods, Variants(pods))
    ensures r.Err? ==> r.error.MissingPod? && r.error.variant in Variants(pods)
                       && FindPod(pods, r.error.variant, r.error.component).None?
    ensures r.Ok? ==> r.value.name == name && r.value.variants == Variants(pods)
    ensures r.Ok? ==> SharedCorrectly(pods, Variants(pods), r.value.grid, r.value.sharedCells)
    ensures r.Ok? ==> |r.value.grid| == |r.value.variants|
                      && r.value.matrix == OmniLayout(name, r.value.variants, r.value.grid, r.value.sharedCells)
  {
    var variants := Variants(pods);
    match Grid(pods, variants)
    case Err(e) => Err(e)
    case Ok(grid) =>
      GridHoldsOriginals(pods, variants, grid);
      ReduceGridShares(pods, variants, grid);
      var red := ReduceGrid(grid);
      OmniConverted(name, variants, red.pods, red.sharedCells);
      var matrix := [Header(name)] + ConvertToStrings(OmniCells(variants, red.pods, red.sharedCells)).value;
      Ok(Omnimech(name, variants, red.pods, red.sharedCells, matrix))
  }

  /** One pod per record of the omnipod dict, in the dict's order; fails on
      the first record that cannot be made into a pod. */
  function MakePods(records: seq<PodRecord>, percent: string -> Option<string>): (r: Result<seq<Omnipod>, OmniError>)
    ensures r.Ok? <==> forall i :: 0 <= i < |records| ==> MakeOmnipod(records[i], percent).Ok?
    ensures r.Ok? ==> |r.value| == |records|
    ensures r.Ok? ==> forall i :: 0 <= i < |records| ==> Ok(r.value[i]) == MakeOmnipod(records[i], percent)
    ensures r.Err? ==> exists i :: 0 <= i < |records| && MakeOmnipod(records[i], percent).Err?
                                  && r.error == BadPod(MakeOmnipod(records[i], percent).error)
                                  && forall j :: 0 <= j < i ==> MakeOmnipod(records[j], percent).Ok?
  {
    var i := FirstIndex(records, (rec: PodRecord) => MakeOmnipod(rec, percent).Err?);
    if i < |records| then Err(BadPod(MakeOmnipod(records[i], percent).error))
    else Ok(seq(|records|, j requires 0 <= j < |records| => MakeOmnipod(records[j], percent).value))
  }

  /** `Omnimech.__init__`: upper-cases the name (`upper` stands for Python's
      `str.upper`), makes the pods and builds the matrix. A bad record fails
      before any slot is looked up. */
  function NewOmnimech(name: string, records: seq<PodRecord>, upper: string -> string,
                       percent: string -> Option<string>): (r: Result<Omnimech, OmniError>)
    ensures MakePods(records, percent).Err? ==> r == Err(MakePods(records, percent).error)
    ensures MakePods(records, percent).Ok? ==>
              r == BuildMatrix(upper(name), MakePods(records, percent).value)
    ensures r.Ok? ==> r.value.name == upper(name) && r.value.matrix[0] == Header(upper(name))
  {
    match MakePods(records, percent)
    case Err(e) => Err(e)
    case Ok(pods) =>
      var r := BuildMatrix(upper(name), pods);
      if r.Ok? then
        OmniLayoutShape(upper(name), r.value.variants, r.value.grid, r.value.sharedCells);
        r
      else r
  }
}

=== FILE: omnipods.dfy ===
/**
 * `Omnipod`: one variant's pod for one component. Its quirks are the
 * configuration quirks sorted by name, followed, when the pod has any
 * hardpoints, by one synthetic `HARDPOINTS` quirk summarising them.
 */
module Omnipods {
  import opened Results
  import opened Text
  import opened Quirks
  import opened Components
  import Seqs
  import Sorting

  /** The hardpoint kinds, in the order of the tally dict (`'missle'` is the source's spelling). */
  datatype Kind = Beam | Missle | Ballistic | Ams | Ecm

  const KindOrder: seq<Kind> := [Beam, Missle, Ballistic, Ams, Ecm]

  /** One hardpoint entry: its type (already lower-cased) and its count as an integer. */
  datatype Hardpoint = Hardpoint(kind: Kind, count: int)

  /** The per-kind counts (`self.hardpoints`). */
  datatype Tally = Tally(beam: int, missle: int, ballistic: int, ams: int, ecm: int) {

    function Get(k: Kind): int {
      match k
      case Beam => beam
      case Missle => missle
      case Ballistic => ballistic
      case Ams => ams
      case Ecm => ecm
    }

    /** Adds `n` to the count of kind `k`, leaving the other kinds alone. */
    function Add(k: Kind, n: int): (t: Tally)
      ensures t.Get(k) == Get(k) + n
      ensures forall j :: j != k ==> t.Get(j) == Get(j)
    {
      match k
      case Beam => this.(beam := beam + n)
      case Missle => this.(missle := missle + n)
      case Ballistic => this.(ballistic := ballistic + n)
      case Ams => this.(ams := ams + n)
      case Ecm => this.(ecm := ecm + n)
    }

    /** Every kind's count is zero. */
    predicate AllZero() {
      forall k | k in KindOrder :: Get(k) == 0
    }
  }

  const NoHardpoints := Tally(0, 0, 0, 0, 0)

  lemma KindOrderComplete()
    ensures forall k :: k in KindOrder
  {
    forall k ensures k in KindOrder {
      match k
      case Beam => case Missle => case Ballistic => case Ams => case Ecm =>
    }
  }

  /** The sum of the counts of the entries of kind `k`. */
  function KindTotal(hps: seq<Hardpoint>, k: Kind): int {
    if |hps| == 0 then 0
    else (if hps[0].kind == k then hps[0].count else 0) + KindTotal(hps[1..], k)
  }

  lemma {:induction false} KindTotalAppend(a: seq<Hardpoint>, b: seq<Hardpoint>, k: Kind)
    ensures KindTotal(a + b, k) == KindTotal(a, k) + KindTotal(b, k)
    decreases |a|
  {
    if |a| > 0 {
      assert (a + b)[1..] == a[1..] + b;
      KindTotalAppend(a[1..], b, k);
    } else {
      assert a + b == b;
    }
  }

  /** Totals over the flattened sub-record lists split at the first list. */
  lemma FlattenTotal(subRecords: seq<seq<Hardpoint>>)
    requires |subRecords| > 0
    ensures forall k :: KindTotal(Seqs.Flatten(subRecords), k)
                     == KindTotal(subRecords[0], k) + KindTotal(Seqs.Flatten(subRecords[1..]), k)
  {
    forall k {
      KindTotalAppend(subRecords[0], Seqs.Flatten(subRecords[1..]), k);
    }
  }

  /** The inner loop of `_get_hardpoints`: adds each entry's count to its kind. */
  function TallyEntries(t: Tally, hps: seq<Hardpoint>): (r: Tally)
    ensures forall k :: r.Get(k) == t.Get(k) + KindTotal(hps, k)
    decreases |hps|
  {
    if |hps| == 0 then t
    else TallyEntries(t.Add(hps[0].kind, hps[0].count), hps[1..])
  }

  /** The outer loop of `_get_hardpoints`, over the hardpoint lists of the pod's sub-records. */
  function TallyRecords(t: Tally, subRecords: seq<seq<Hardpoint>>): (r: Tally)
    ensures forall k :: r.Get(k) == t.Get(k) + KindTotal(Seqs.Flatten(subRecords), k)
    decreases |subRecords|
  {
    if |subRecords| == 0 then t
    else
      var r := TallyRecords(TallyEntries(t, subRecords[0]), subRecords[1..]);
      FlattenTotal(subRecords);
      r
  }

  /** `Omnipod._get_hardpoints`: every kind's count is the sum over all entries of that kind. */
  function GetHardpoints(subRecords: seq<seq<Hardpoint>>): (t: Tally)
    ensures forall k :: t.Get(k) == KindTotal(Seqs.Flatten(subRecords), k)
  {
    TallyRecords(NoHardpoints, subRecords)
  }

  /** The kinds of `ks` with a positive count, in the order of `ks`. */
  function PresentAmong(t: Tally, ks: seq<Kind>): (r: seq<Kind>)
    ensures forall k :: k in r <==> k in ks && t.Get(k) > 0
    ensures Seqs.IsSubsequence(r, ks)
  {
    if |ks| == 0 then []
    else
      var rest := PresentAmong(t, ks[1..]);
      if t.Get(ks[0]) > 0 then
        assert ([ks[0]] + rest)[1..] == rest;
        [ks[0]] + rest
      else rest
  }

  /** The kinds with a positive count, in tally order. */
  function PresentKinds(t: Tally): (r: seq<Kind>)
    ensures forall k :: k in r <==> t.Get(k) > 0
    ensures Seqs.IsSubsequence(r, KindOrder)
  {
    KindOrderComplete();
    PresentAmong(t, KindOrder)
  }

  function Shortname(k: Kind): string {
    match k
    case Beam => "E"
    case Missle => "M"
    case Ballistic => "B"
    case Ams => "AMS"
    case Ecm => "ECM"
  }

  function Color(k: Kind): string {
    match k
    case Beam => "orange"
    case Missle => "teal"
    case Ballistic => "purple"
    case Ams => "red"
    case Ecm => "green"
  }

  /** The tag for one kind: its count in decimal followed by its short name,
      wrapped in a `font` element coloured with the kind's colour. */
  function HardpointTag(k: Kind, count: nat): string {
    "<font color=\"" + Color(k) + "\">" + Decimal(count) + Shortname(k) + "</font>"
  }

  /** The tag of every present kind, in tally order. */
  function HardpointTags(t: Tally): (r: seq<string>)
    ensures |r| == |PresentKinds(t)|
  {
    var ks := PresentKinds(t);
    seq(|ks|, i requires 0 <= i < |ks| => HardpointTag(ks[i], t.Get(ks[i])))
  }

  /** The value of the synthetic quirk: the tags joined by ", ". */
  function HardpointsValue(t: Tally): string {
    Join(", ", HardpointTags(t))
  }

  /** The synthetic quirk's name. */
  const HardpointsName: string := "\n\t<b>HARDPOINTS</b>"

  /** The synthetic name contains "HARDPOINT", so its value is kept verbatim,
      and contains "HARDPOINTS", so the omnimech reduction never shares it. */
  lemma HardpointsNameKeepsValue()
    ensures NamesKeyword(HardpointsName)
    ensures Contains(HardpointsName, "HARDPOINTS")
  {
    assert HardpointsName[5..14] == "HARDPOINT";
    assert OccursAt(HardpointsName, "HARDPOINT", 5);
    assert "HARDPOINT" in NonPercentKeywords;
    assert HardpointsName[5..15] == "HARDPOINTS";
    OccursContains(HardpointsName, "HARDPOINTS", 5);
  }

  /** `_add_hardpoints_to_quirks`: appends the synthetic quirk unless every count is zero. */
  function AddHardpoints(quirks: seq<Quirk>, t: Tally, percent: string -> Option<string>): (r: seq<Quirk>)
    ensures t.AllZero() ==> r == quirks
    ensures !t.AllZero() ==> r == quirks + [Quirk(HardpointsName, HardpointsValue(t))]
  {
    if t.AllZero() then quirks
    else
      HardpointsNameKeepsValue();
      quirks + [MakeQuirk(QuirkRecord(HardpointsName, HardpointsValue(t)), percent).value]
  }

  /** One pod as delivered: configuration name, `set` (variant) name, configuration
      quirks, and the hardpoint lists of its sub-records. */
  datatype PodRecord = PodRecord(
    configurationName: string,
    setName: string,
    quirks: seq<QuirkRecord>,
    hardpoints: seq<seq<Hardpoint>>)

  datatype Omnipod = Omnipod(component: Component, variant: string, quirks: seq<Quirk>, hardpoints: Tally)

  datatype PodError = UnknownComponent(name: string) | BadQuirk(error: QuirkError)

  /** The `Omnipod` constructor: an unknown component name or a quirk that fails
      conversion aborts construction. */
  function MakeOmnipod(rec: PodRecord, percent: string -> Option<string>): (r: Result<Omnipod, PodError>)
    ensures r.Ok? <==> Parse(rec.configurationName).Some? && MakeQuirks(rec.quirks, percent).Ok?
    ensures Parse(rec.configurationName).None? ==> r == Err(UnknownComponent(rec.configurationName))
    ensures r.Ok? ==> Value(r.value.component) == rec.configurationName && r.value.variant == rec.setName
    ensures r.Ok? ==> forall k :: r.value.hardpoints.Get(k) == KindTotal(Seqs.Flatten(rec.hardpoints), k)
  {
    match Parse(rec.configurationName)
    case None => Err(UnknownComponent(rec.configurationName))
    case Some(c) =>
      match MakeQuirks(rec.quirks, percent)
      case Err(e) => Err(BadQuirk(e))
      case Ok(qs) =>
        var hp := GetHardpoints(rec.hardpoints);
        Ok(Omnipod(c, rec.setName, AddHardpoints(SortQuirks(qs), hp, percent), hp))
  }

  /** A pod's quirk list is its configuration quirks sorted by name; when some
      count is non-zero, exactly one quirk follows them, named HARDPOINTS and
      listing the present kinds in tally order. */
  lemma PodQuirks(rec: PodRecord, percent: string -> Option<string>)
    requires MakeOmnipod(rec, percent).Ok?
    ensures var pod := MakeOmnipod(rec, percent).value;
            var qs := MakeQuirks(rec.quirks, percent).value;
            && |pod.quirks| == |qs| + (if pod.hardpoints.AllZero() then 0 else 1)
            && pod.quirks[..|qs|] == SortQuirks(qs)
            && Sorting.SortedBy(pod.quirks[..|qs|], NameOf)
            && multiset(pod.quirks[..|qs|]) == multiset(qs)
            && (!pod.hardpoints.AllZero() ==>
                  var last := pod.quirks[|qs|];
                  Contains(last.name, "HARDPOINTS") && last.value == Join(", ", HardpointTags(pod.hardpoints)))
  {
    var pod := MakeOmnipod(rec, percent).value;
    var qs := MakeQuirks(rec.quirks, percent).value;
    var sorted := SortQuirks(qs);
    assert pod.quirks == AddHardpoints(sorted, pod.hardpoints, percent);
    assert |sorted| == |qs| by {
      assert |multiset(sorted)| == |multiset(qs)|;
    }
    assert pod.quirks[..|qs|] == sorted;
    if !pod.hardpoints.AllZero() {
      HardpointsNameKeepsValue();
    }
  }

  /** A tally that is not all zero but has no positive count (some count
      went below zero) makes the pod carry a HARDPOINTS quirk whose value is
      empty. */
  lemma NegativeCountGivesEmptyHardpoints(quirks: seq<Quirk>, t: Tally, percent: string -> Option<string>)
    requires !t.AllZero()
    requires forall k :: t.Get(k) <= 0
    ensures AddHardpoints(quirks, t, percent) == quirks + [Quirk(HardpointsName, "")]
  {
    var r := PresentKinds(t);
    assert forall i :: 0 <= i < |r| ==> r[i] in r && t.Get(r[i]) > 0;
  }

  /** Two energy and one ballistic hardpoint, no missile: the value is the
      energy tag, then the ballistic tag, and nothing else. */
  lemma HardpointsExample()
    ensures HardpointsValue(Tally(2, 0, 1, 0, 0)) == HardpointTag(Beam, 2) + ", " + HardpointTag(Ballistic, 1)
  {
    var t := Tally(2, 0, 1, 0, 0);
    ExamplePresentKinds();
    var tags := HardpointTags(t);
    assert tags == [HardpointTag(Beam, 2), HardpointTag(Ballistic, 1)];
    assert Join(", ", tags) == tags[0] + ", " + Join(", ", tags[1..]);
    assert tags[1..] == [tags[1]];
  }

  lemma ExamplePresentKinds()
    ensures PresentKinds(Tally(2, 0, 1, 0, 0)) == [Beam, Ballistic]
  {
    var t := Tally(2, 0, 1, 0, 0);
    assert PresentAmong(t, KindOrder[4..]) == [];
    assert PresentAmong(t, KindOrder[3..]) == [];
    assert PresentAmong(t, KindOrder[2..]) == [Ballistic];
    assert PresentAmong(t, KindOrder[1..]) == [Ballistic];
  }
}

=== FILE: quirks.dfy ===
/**
 * `Quirk`: a named modifier with a display value. Its value is converted to a
 * percentage on construction unless the name contains one of seven keywords;
 * quirks are equal when name and value match, and are ordered by name alone.
 */
module Quirks {
  import opened Results
  import opened Text
  import Sorting

  /** A modifier as displayed. Dafny's structural equality on this datatype is
      Python's `Quirk.__eq__` (name and value both match). */
  datatype Quirk = Quirk(name: string, value: string)

  /** A quirk record as delivered: its `translated_name` and its raw `value`, as text. */
  datatype QuirkRecord = QuirkRecord(translatedName: string, value: string)

  /** The percent conversion could not read the value as a number (Python's `ValueError`). */
  datatype QuirkError = NotANumber(value: string)

  /** Names containing any of these keep their raw value. */
  const NonPercentKeywords: seq<string> :=
    ["ADDITIONAL", "BONUS", "HARDPOINT", "ANGLE", "JUMP", "NARC", "SENSOR"]

  /** Some keyword occurs as a substring of the name. */
  predicate AnyKeywordIn(name: string, keywords: seq<string>) {
    if |keywords| == 0 then false
    else Contains(name, keywords[0]) || AnyKeywordIn(name, keywords[1..])
  }

  /** Some keyword occurs somewhere in `name`. */
  ghost predicate NamesKeyword(name: string) {
    exists k, i :: k in NonPercentKeywords && OccursAt(name, k, i)
  }

  lemma {:induction false} AnyKeywordMeansOccurrence(name: string, keywords: seq<string>)
    ensures AnyKeywordIn(name, keywords) <==> exists k, i :: k in keywords && OccursAt(name, k, i)
    decreases |keywords|
  {
    if |keywords| > 0 {
      AnyKeywordMeansOccurrence(name, keywords[1..]);
      ContainsMeansOccurs(name, keywords[0]);
      if exists k, i :: k in keywords && OccursAt(name, k, i) {
        var k, i :| k in keywords && OccursAt(name, k, i);
        if k != keywords[0] {
          assert k in keywords[1..];
        }
      }
      if AnyKeywordIn(name, keywords[1..]) {
        var k, i :| k in keywords[1..] && OccursAt(name, k, i);
        assert k in keywords;
      }
    }
  }

  /** The `Quirk` constructor. `percent` stands for the conversion of a
      numeric text to a percentage: the value times a hundred, truncated to
      an integer, written in decimal and followed by a percent sign; it is
      `None` where the text is not a number. */
  function MakeQuirk(rec: QuirkRecord, percent: string -> Option<string>): (r: Result<Quirk, QuirkError>)
    ensures NamesKeyword(rec.translatedName) ==> r == Ok(Quirk(rec.translatedName, rec.value))
    ensures !NamesKeyword(rec.translatedName) ==>
      match percent(rec.value)
      case Some(p) => r == Ok(Quirk(rec.translatedName, p))
      case None => r == Err(NotANumber(rec.value))
  {
    AnyKeywordMeansOccurrence(rec.translatedName, NonPercentKeywords);
    if AnyKeywordIn(rec.translatedName, NonPercentKeywords) then
      Ok(Quirk(rec.translatedName, rec.value))
    else
      match percent(rec.value)
      case Some(p) => Ok(Quirk(rec.translatedName, p))
      case None => Err(NotANumber(rec.value))
  }

  /** `records[i]` is the first record whose conversion fails. */
  ghost predicate FirstFailure(records: seq<QuirkRecord>, percent: string -> Option<string>, i: int) {
    && 0 <= i < |records|
    && MakeQuirk(records[i], percent).Err?
    && forall j :: 0 <= j < i ==> MakeQuirk(records[j], percent).Ok?
  }

  /** One quirk per record, in order: the first record that fails aborts the list. */
  function MakeQuirks(records: seq<QuirkRecord>, percent: string -> Option<string>)
    : (r: Result<seq<Quirk>, QuirkError>)
    ensures r.Ok? <==> forall i :: 0 <= i < |records| ==> MakeQuirk(records[i], percent).Ok?
    ensures r.Ok? ==> |r.value| == |records|
    ensures r.Ok? ==> forall i :: 0 <= i < |records| ==> Ok(r.value[i]) == MakeQuirk(records[i], percent)
    ensures r.Err? ==> exists i :: FirstFailure(records, percent, i) && MakeQuirk(records[i], percent) == Err(r.error)
  {
    if |records| == 0 then Ok([])
    else
      match MakeQuirk(records[0], percent)
      case Err(e) =>
        assert FirstFailure(records, percent, 0);
        Err(e)
      case Ok(q) =>
        match MakeQuirks(records[1..], percent)
        case Err(e) =>
          assert forall j :: 1 <= j < |records| ==> records[j] == records[1..][j - 1];
          assert exists i :: FirstFailure(records, percent, i) && MakeQuirk(records[i], percent) == Err(e) by {
            var i :| FirstFailure(records[1..], percent, i) && MakeQuirk(records[1..][i], percent) == Err(e);
            assert FirstFailure(records, percent, i + 1);
          }
          Err(e)
        case Ok(rest) =>
          assert forall j :: 1 <= j < |records| ==> records[j] == records[1..][j - 1];
          Ok([q] + rest)
  }

  /** Python's `Quirk.__lt__`: quirks are ordered by name only. */
  predicate Before(a: Quirk, b: Quirk) {
    Less(a.name, b.name)
  }

  /** The sort key of a quirk. */
  function NameOf(q: Quirk): string { q.name }

  /** Equality needs name and value to match, while ordering looks at names
      only: two quirks tie in order exactly when their names are equal, so
      equal-named quirks with different values are distinct but tie. */
  lemma EqualityVersusOrder(a: Quirk, b: Quirk)
    ensures a == b <==> a.name == b.name && a.value == b.value
    ensures !Before(a, b) && !Before(b, a) <==> a.name == b.name
    ensures !(Before(a, b) && Before(b, a))
  {
    LessIrreflexive(a.name);
    LessTotal(a.name, b.name);
  }

  /** `Before` is transitive, so Python's sort is well defined on quirks. */
  lemma BeforeTransitive(a: Quirk, b: Quirk, c: Quirk)
    requires Before(a, b) && Before(b, c)
    ensures Before(a, c)
  {
    LessTransitive(a.name, b.name, c.name);
  }

  /** Python's `sorted(quirks)`: a permutation in name order that keeps the
      input order among quirks of the same name. */
  function SortQuirks(qs: seq<Quirk>): (r: seq<Quirk>)
    ensures multiset(r) == multiset(qs)
    ensures Sorting.SortedBy(r, NameOf)
    ensures forall n :: Sorting.WithKey(r, NameOf, n) == Sorting.WithKey(qs, NameOf, n)
  {
    forall n ensures Sorting.WithKey(Sorting.SortBy(qs, NameOf), NameOf, n) == Sorting.WithKey(qs, NameOf, n) {
      Sorting.SortByStable(qs, NameOf, n);
    }
    Sorting.SortBy(qs, NameOf)
  }
}

=== FILE: results.dfy ===
/** Failure-carrying values used where the Python code raises an exception. */
module Results {

  /** An optional value: `None` stands for "no such thing" (a failed lookup or parse). */
  datatype Option<+T> = None | Some(value: T)

  /** Either a computed value or the error that aborts the computation. */
  datatype Result<+T, +E> = Ok(value: T) | Err(error: E)
}

=== FILE: seqs.dfy ===
/**
 * Python list operations the quirk reductions are built from: flattening a
 * list of lists, `list.remove`, filtering comprehensions, iterating a `set`,
 * and testing that a value is in every list of a list.
 */
module Seqs {

  /** `a` is `b` with some elements left out, the rest in their original order. */
  predicate IsSubsequence<T(==)>(a: seq<T>, b: seq<T>)
    decreases |b|
  {
    |a| == 0
    || (|b| > 0 && ((a[0] == b[0] && IsSubsequence(a[1..], b[1..])) || IsSubsequence(a, b[1..])))
  }

  lemma {:induction false} SubsequenceReflexive<T>(s: seq<T>)
    ensures IsSubsequence(s, s)
    decreases |s|
  {
    if |s| > 0 {
      SubsequenceReflexive(s[1..]);
    }
  }

  lemma {:induction false} SubsequenceTransitive<T>(a: seq<T>, b: seq<T>, c: seq<T>)
    requires IsSubsequence(a, b) && IsSubsequence(b, c)
    ensures IsSubsequence(a, c)
    decreases |c|
  {
    if |a| > 0 {
      assert |b| > 0 && |c| > 0;
      if IsSubsequence(b, c[1..]) {
        SubsequenceTransitive(a, b, c[1..]);
      } else if a[0] == b[0] && IsSubsequence(a[1..], b[1..]) {
        SubsequenceTransitive(a[1..], b[1..], c[1..]);
      } else {
        SubsequenceTransitive(a, b[1..], c[1..]);
      }
    }
  }

  lemma {:induction false} SubsequenceMembers<T>(a: seq<T>, b: seq<T>)
    requires IsSubsequence(a, b)
    ensures forall x :: x in a ==> x in b
    decreases |b|
  {
    if |a| > 0 {
      if a[0] == b[0] && IsSubsequence(a[1..], b[1..]) {
        SubsequenceMembers(a[1..], b[1..]);
        assert forall x :: x in a ==> x == a[0] || x in a[1..];
      } else {
        SubsequenceMembers(a, b[1..]);
      }
    }
  }

  /** The lists concatenated in order, as a nested comprehension flattens them. */
  function Flatten<T(!new)>(lists: seq<seq<T>>): (r: seq<T>)
    ensures forall v :: 0 <= v < |lists| ==> multiset(lists[v]) <= multiset(r)
    ensures forall x :: x in r <==> exists v :: 0 <= v < |lists| && x in lists[v]
  {
    if |lists| == 0 then []
    else
      var rest := Flatten(lists[1..]);
      assert forall v :: 1 <= v < |lists| ==> lists[v] == lists[1..][v - 1];
      lists[0] + rest
  }

  /** Dropping the element at `i` removes one occurrence of it. */
  lemma RemoveAtCount<T>(s: seq<T>, i: nat)
    requires i < |s|
    ensures multiset(s[..i] + s[i + 1..]) == multiset(s) - multiset{s[i]}
  {
    assert s == s[..i] + [s[i]] + s[i + 1..];
  }

  /** Dropping the element at `i` leaves a subsequence. */
  lemma {:induction false} RemoveAtSubsequence<T>(s: seq<T>, i: nat)
    requires i < |s|
    ensures IsSubsequence(s[..i] + s[i + 1..], s)
    decreases i
  {
    var r := s[..i] + s[i + 1..];
    if i == 0 {
      assert r == s[1..];
      SubsequenceReflexive(s[1..]);
    } else {
      var t := s[1..];
      RemoveAtSubsequence(t, i - 1);
      assert r[1..] == t[..i - 1] + t[i..];
      assert r[0] == s[0];
    }
  }

  /** Appending the same element to both sides keeps the subsequence order. */
  lemma {:induction false} SubsequenceAppend<T>(a: seq<T>, b: seq<T>, x: T)
    requires IsSubsequence(a, b)
    ensures IsSubsequence(a + [x], b + [x])
    decreases |b|
  {
    if |b| == 0 {
      assert a + [x] == b + [x];
      SubsequenceReflexive(b + [x]);
    } else {
      assert (b + [x])[1..] == b[1..] + [x];
      if |a| > 0 && a[0] == b[0] && IsSubsequence(a[1..], b[1..]) {
        SubsequenceAppend(a[1..], b[1..], x);
        assert (a + [x])[1..] == a[1..] + [x];
      } else {
        SubsequenceAppend(a, b[1..], x);
      }
    }
  }

  /** Python's `s.remove(x)`: drops the first element equal to `x`. */
  function RemoveFirst<T(==)>(s: seq<T>, x: T): (r: seq<T>)
    requires x in s
    ensures multiset(r) == multiset(s) - multiset{x}
    ensures IsSubsequence(r, s)
    ensures exists i :: 0 <= i < |s| && s[i] == x && x !in s[..i] && r == s[..i] + s[i + 1..]
  {
    var i := FirstIndexOf(s, x);
    RemoveAtCount(s, i);
    RemoveAtSubsequence(s, i);
    s[..i] + s[i + 1..]
  }

  /** The index of the first occurrence of `x` in `s`. */
  function FirstIndexOf<T(==)>(s: seq<T>, x: T): (i: nat)
    requires x in s
    ensures i < |s| && s[i] == x && x !in s[..i]
    decreases |s|
  {
    if s[0] == x then 0
    else
      var j := FirstIndexOf(s[1..], x);
      assert s[..j + 1] == [s[0]] + s[1..][..j];
      j + 1
  }

  /** Removing the first occurrence from a list with a known head: the head
      itself when it is the value, otherwise the first occurrence in the tail. */
  lemma RemoveFirstOfCons<T>(y: T, t: seq<T>, x: T)
    requires x in [y] + t
    ensures RemoveFirst([y] + t, x) == if x == y then t else [y] + RemoveFirst(t, x)
  {
    var s := [y] + t;
    assert s[1..] == t;
    if x != y {
      var j := FirstIndexOf(t, x);
      assert FirstIndexOf(s, x) == j + 1;
      assert s[..j + 1] + s[j + 2..] == [y] + (t[..j] + t[j + 1..]);
    }
  }

  /** `s` with the first `m[x]` occurrences of every value `x` left out (all
      of them when there are fewer): an independent description of what
      removing the first occurrence of each element of `m`, one after
      another, leaves. */
  function DropFirstCopies<T(==)>(s: seq<T>, m: multiset<T>): seq<T>
    decreases |s|
  {
    if |s| == 0 then []
    else if m[s[0]] > 0 then DropFirstCopies(s[1..], m - multiset{s[0]})
    else [s[0]] + DropFirstCopies(s[1..], m)
  }

  /** Dropping the first copies counted by `m` removes exactly `m`'s copies,
      as far as `s` has them. */
  lemma {:induction false} DropFirstCopiesCount<T>(s: seq<T>, m: multiset<T>)
    ensures multiset(DropFirstCopies(s, m)) == multiset(s) - m
    decreases |s|
  {
    if |s| > 0 {
      assert s == [s[0]] + s[1..];
      if m[s[0]] > 0 {
        DropFirstCopiesCount(s[1..], m - multiset{s[0]});
      } else {
        DropFirstCopiesCount(s[1..], m);
      }
    }
  }

  /** Dropping no copies leaves the list as it is. */
  lemma {:induction false} DropNothing<T>(s: seq<T>)
    ensures DropFirstCopies(s, multiset{}) == s
    decreases |s|
  {
    if |s| > 0 {
      DropNothing(s[1..]);
    }
  }

  /** The first `m[x]` occurrences of every value `x` of `s`, in order (all
      of them when there are fewer): the counterpart of `DropFirstCopies`,
      which leaves exactly these out. */
  function KeepFirstCopies<T(==)>(s: seq<T>, m: multiset<T>): seq<T>
    decreases |s|
  {
    if |s| == 0 then []
    else if m[s[0]] > 0 then [s[0]] + KeepFirstCopies(s[1..], m - multiset{s[0]})
    else KeepFirstCopies(s[1..], m)
  }

  /** Keeping the first copies counted by `m` keeps, of each value, as many
      copies as both `s` and `m` have. */
  lemma {:induction false} KeepFirstCopiesCount<T>(s: seq<T>, m: multiset<T>)
    ensures multiset(KeepFirstCopies(s, m)) == multiset(s) * m
    decreases |s|
  {
    if |s| > 0 {
      assert s == [s[0]] + s[1..];
      if m[s[0]] > 0 {
        KeepFirstCopiesCount(s[1..], m - multiset{s[0]});
      } else {
        KeepFirstCopiesCount(s[1..], m);
      }
    }
  }

  /** Once every copy of `x` in `s` is kept, one more `x` at the end is kept
      last. */
  lemma {:induction false} KeepAppendKept<T>(s: seq<T>, m: multiset<T>, x: T)
    requires m <= multiset(s) && m[x] == multiset(s)[x]
    ensures KeepFirstCopies(s + [x], m + multiset{x}) == KeepFirstCopies(s, m) + [x]
    decreases |s|
  {
    var n := m + multiset{x};
    if |s| == 0 {
      assert m == multiset{};
      assert [x][1..] == [];
    } else {
      var a, t := s[0], s[1..];
      assert s == [a] + t;
      assert (s + [x])[0] == a && (s + [x])[1..] == t + [x];
      if m[a] > 0 {
        assert n - multiset{a} == (m - multiset{a}) + multiset{x};
        KeepAppendKept(t, m - multiset{a}, x);
      } else {
        assert x != a;
        KeepAppendKept(t, m, x);
      }
    }
  }

  /** An element past every counted copy is not kept. */
  lemma {:induction false} KeepAppendSkipped<T>(s: seq<T>, m: multiset<T>, x: T)
    requires m <= multiset(s)
    ensures KeepFirstCopies(s + [x], m) == KeepFirstCopies(s, m)
    decreases |s|
  {
    if |s| == 0 {
      assert m == multiset{};
      assert [x][1..] == [];
    } else {
      var a, t := s[0], s[1..];
      assert s == [a] + t;
      assert (s + [x])[0] == a && (s + [x])[1..] == t + [x];
      if m[a] > 0 {
        KeepAppendSkipped(t, m - multiset{a}, x);
      } else {
        KeepAppendSkipped(t, m, x);
      }
    }
  }

  /** Removing the first `x` after dropping the first copies counted by `m`
      drops the first copies counted by `m` plus one more `x`. */
  lemma {:induction false} RemoveFirstOfDropped<T>(s: seq<T>, m: multiset<T>, x: T)
    requires x in DropFirstCopies(s, m)
    ensures RemoveFirst(DropFirstCopies(s, m), x) == DropFirstCopies(s, m + multiset{x})
    decreases |s|
  {
    var y, t := s[0], s[1..];
    if m[y] > 0 {
      DroppedHead(s, m, x);
      RemoveFirstOfDropped(t, m - multiset{y}, x);
    } else {
      var d := DropFirstCopies(t, m);
      assert DropFirstCopies(s, m) == [y] + d;
      RemoveFirstOfCons(y, d, x);
      if x == y {
        KeptHeadRemoved(s, m);
      } else {
        assert x in d;
        KeptHeadStays(s, m, x);
        RemoveFirstOfDropped(t, m, x);
      }
    }
  }

  /** A head that `m` counts is dropped, with or without one more `x`. */
  lemma DroppedHead<T>(s: seq<T>, m: multiset<T>, x: T)
    requires |s| > 0 && m[s[0]] > 0
    ensures DropFirstCopies(s, m) == DropFirstCopies(s[1..], m - multiset{s[0]})
    ensures DropFirstCopies(s, m + multiset{x}) == DropFirstCopies(s[1..], (m - multiset{s[0]}) + multiset{x})
  {
    assert m + multiset{x} - multiset{s[0]} == (m - multiset{s[0]}) + multiset{x};
  }

  /** A head that `m` does not count, removed once more, leaves the dropped tail. */
  lemma KeptHeadRemoved<T>(s: seq<T>, m: multiset<T>)
    requires |s| > 0 && m[s[0]] == 0
    ensures DropFirstCopies(s, m + multiset{s[0]}) == DropFirstCopies(s[1..], m)
  {
    assert m + multiset{s[0]} - multiset{s[0]} == m;
  }

  /** A head that neither `m` nor the extra `x` counts stays in front. */
  lemma KeptHeadStays<T>(s: seq<T>, m: multiset<T>, x: T)
    requires |s| > 0 && m[s[0]] == 0 && x != s[0]
    ensures DropFirstCopies(s, m + multiset{x}) == [s[0]] + DropFirstCopies(s[1..], m + multiset{x})
  {
  }

  /** The elements of `s` that `keep` accepts, in order, as a filtering comprehension gives them. */
  function Filter<T(!new)>(s: seq<T>, keep: T -> bool): (r: seq<T>)
    ensures IsSubsequence(r, s)
    ensures forall x :: x in r <==> x in s && keep(x)
    ensures forall x :: multiset(r)[x] == if keep(x) then multiset(s)[x] else 0
  {
    if |s| == 0 then []
    else
      var rest := Filter(s[1..], keep);
      assert s == [s[0]] + s[1..];
      if keep(s[0]) then
        var r := [s[0]] + rest;
        assert r[1..] == rest;
        r
      else
        rest
  }

  /** No element occurs twice. */
  predicate NoDuplicates<T(==)>(s: seq<T>) {
    forall i, j :: 0 <= i < j < |s| ==> s[i] != s[j]
  }

  /** The elements of `s`, each once, in order of first appearance: one
      deterministic enumeration of Python's `set(s)`. */
  function Dedup<T(==,!new)>(s: seq<T>): (r: seq<T>)
    ensures forall x :: x in r <==> x in s
    ensures NoDuplicates(r)
    ensures forall x :: multiset(r)[x] <= 1
  {
    if |s| == 0 then []
    else
      var d := Dedup(s[..|s| - 1]);
      assert s == s[..|s| - 1] + [s[|s| - 1]];
      if s[|s| - 1] in d then d else d + [s[|s| - 1]]
  }

  /** `x` is an element of every list in `lists` (vacuously so when there are none). */
  predicate InEvery<T(==)>(lists: seq<seq<T>>, x: T) {
    forall v :: 0 <= v < |lists| ==> x in lists[v]
  }

  /** The position of the first element that satisfies `bad`, or `|s|` when
      none does: where a Python loop over `s` raises first. */
  function FirstIndex<T>(s: seq<T>, bad: T -> bool): (i: nat)
    ensures i <= |s|
    ensures forall j :: 0 <= j < i ==> !bad(s[j])
    ensures i < |s| ==> bad(s[i])
  {
    if |s| == 0 || bad(s[0]) then 0
    else
      var i := FirstIndex(s[1..], bad);
      assert forall j :: 1 <= j < i + 1 ==> s[j] == s[1..][j - 1];
      i + 1
  }
}

=== FILE: sorting.dfy ===
/**
 * Python's `sorted(s)` / `s.sort()`: a stable sort that compares elements only
 * with `<` on a string key (`Quirk.__lt__` compares names; tuples of distinct
 * variant names compare by the name). Modelled as insertion sort; stability
 * plus sortedness determine the result, so any stable sort gives the same list.
 */
module Sorting {
  import opened Text
  import Seqs

  /** No element's key is smaller than the key of an element before it. */
  ghost predicate SortedBy<T>(s: seq<T>, key: T -> string) {
    forall i, j :: 0 <= i < j < |s| ==> !Less(key(s[j]), key(s[i]))
  }

  /** Keys increase strictly along the sequence. */
  ghost predicate StrictlyAscending<T>(s: seq<T>, key: T -> string) {
    forall i, j :: 0 <= i < j < |s| ==> Less(key(s[i]), key(s[j]))
  }

  /** No two elements share a key (for example, the keys of a Python dict). */
  predicate DistinctKeys<T>(s: seq<T>, key: T -> string) {
    forall i, j :: 0 <= i < j < |s| ==> key(s[i]) != key(s[j])
  }

  /** Places `x` in front of the first element whose key is not smaller than `x`'s. */
  function Insert<T>(x: T, t: seq<T>, key: T -> string): (r: seq<T>)
    ensures |r| == |t| + 1
    ensures multiset(r) == multiset(t) + multiset{x}
  {
    if |t| == 0 || !Less(key(t[0]), key(x)) then [x] + t
    else
      assert t == [t[0]] + t[1..];
      [t[0]] + Insert(x, t[1..], key)
  }

  lemma {:induction false} InsertKeepsSorted<T>(x: T, t: seq<T>, key: T -> string)
    requires SortedBy(t, key)
    ensures SortedBy(Insert(x, t, key), key)
    decreases |t|
  {
    var r := Insert(x, t, key);
    if |t| == 0 {
    } else if !Less(key(t[0]), key(x)) {
      forall j | 0 <= j < |t|
        ensures !Less(key(t[j]), key(x))
      {
        if j > 0 && Less(key(t[j]), key(x)) {
          LessTotal(key(t[0]), key(x));
          if Less(key(x), key(t[0])) {
            LessTransitive(key(t[j]), key(x), key(t[0]));
          }
        }
      }
    } else {
      InsertKeepsSorted(x, t[1..], key);
      var rest := Insert(x, t[1..], key);
      LessTotal(key(t[0]), key(x));
      forall j | 0 <= j < |rest|
        ensures !Less(key(rest[j]), key(t[0]))
      {
        assert rest[j] in multiset(rest);
        if rest[j] != x {
          assert rest[j] in multiset(t[1..]);
          var m :| 0 <= m < |t[1..]| && t[1..][m] == rest[j];
          assert t[m + 1] == rest[j];
        }
      }
      assert forall j :: 1 <= j < |r| ==> r[j] == rest[j - 1];
    }
  }

  /** Python's stable `sorted(s)` ordering elements by `key`. */
  function SortBy<T>(s: seq<T>, key: T -> string): (r: seq<T>)
    ensures multiset(r) == multiset(s)
    ensures SortedBy(r, key)
  {
    if |s| == 0 then []
    else
      var rest := SortBy(s[1..], key);
      InsertKeepsSorted(s[0], rest, key);
      assert s == [s[0]] + s[1..];
      Insert(s[0], rest, key)
  }

  /** The elements of `s` whose key is `k`, in their order in `s`. */
  function WithKey<T>(s: seq<T>, key: T -> string, k: string): seq<T> {
    if |s| == 0 then []
    else (if key(s[0]) == k then [s[0]] else []) + WithKey(s[1..], key, k)
  }

  lemma {:induction false} WithKeyMembers<T>(s: seq<T>, key: T -> string, k: string)
    ensures forall x :: x in WithKey(s, key, k) <==> x in s && key(x) == k
    decreases |s|
  {
    if |s| > 0 {
      WithKeyMembers(s[1..], key, k);
      assert s == [s[0]] + s[1..];
    }
  }

  lemma WithKeyMember<T>(s: seq<T>, key: T -> string, k: string, x: T)
    ensures x in WithKey(s, key, k) <==> x in s && key(x) == k
  {
    WithKeyMembers(s, key, k);
  }

  lemma {:induction false} InsertStable<T>(x: T, t: seq<T>, key: T -> string, k: string)
    ensures WithKey(Insert(x, t, key), key, k)
         == (if key(x) == k then [x] else []) + WithKey(t, key, k)
    decreases |t|
  {
    if |t| > 0 && Less(key(t[0]), key(x)) {
      InsertStable(x, t[1..], key, k);
      LessIrreflexive(key(x));
      var r := Insert(x, t, key);
      assert r[0] == t[0] && r[1..] == Insert(x, t[1..], key);
      var head := if key(t[0]) == k then [t[0]] else [];
      var mine := if key(x) == k then [x] else [];
      assert head == [] || mine == [];
      assert WithKey(r, key, k) == head + (mine + WithKey(t[1..], key, k));
      assert WithKey(t, key, k) == head + WithKey(t[1..], key, k);
    } else {
      var r := Insert(x, t, key);
      assert r[0] == x && r[1..] == t;
    }
  }

  /** The sort is stable: among elements with equal keys the input order is kept. */
  lemma {:induction false} SortByStable<T>(s: seq<T>, key: T -> string, k: string)
    ensures WithKey(SortBy(s, key), key, k) == WithKey(s, key, k)
    decreases |s|
  {
    if |s| > 0 {
      SortByStable(s[1..], key, k);
      InsertStable(s[0], SortBy(s[1..], key), key, k);
    }
  }

  /** A non-empty sequence has a non-empty group for its first key. */
  lemma WithKeyOfHead<T>(s: seq<T>, key: T -> string)
    ensures |s| > 0 ==> |WithKey(s, key, key(s[0]))| > 0
    ensures |s| == 0 ==> forall k :: WithKey(s, key, k) == []
  {
  }

  /** If `a` and `b` agree on the elements with `a[0]`'s key and `b` is sorted,
      then `a[0]`'s key is not below `b[0]`'s. */
  lemma HeadKeyNotBelow<T>(a: seq<T>, b: seq<T>, key: T -> string)
    requires |a| > 0 && |b| > 0 && SortedBy(b, key)
    requires WithKey(a, key, key(a[0])) == WithKey(b, key, key(a[0]))
    ensures !Less(key(a[0]), key(b[0]))
  {
    var ka := key(a[0]);
    WithKeyMembers(a, key, ka);
    WithKeyMembers(b, key, ka);
    assert a[0] in WithKey(b, key, ka);
    var j :| 0 <= j < |b| && b[j] == a[0];
    if j == 0 {
      LessIrreflexive(ka);
    }
  }

  /** Agreement on every key group carries over from two sequences to their tails
      once their first elements coincide. */
  lemma TailsAgree<T>(a: seq<T>, b: seq<T>, key: T -> string)
    requires |a| > 0 && |b| > 0 && a[0] == b[0]
    requires forall k :: WithKey(a, key, k) == WithKey(b, key, k)
    ensures forall k :: WithKey(a[1..], key, k) == WithKey(b[1..], key, k)
  {
    forall k
      ensures WithKey(a[1..], key, k) == WithKey(b[1..], key, k)
    {
      var p := if key(a[0]) == k then [a[0]] else [];
      assert WithKey(a, key, k) == p + WithKey(a[1..], key, k);
      assert WithKey(b, key, k) == p + WithKey(b[1..], key, k);
      assert WithKey(a[1..], key, k) == WithKey(a, key, k)[|p|..];
      assert WithKey(b[1..], key, k) == WithKey(b, key, k)[|p|..];
    }
  }

  /** Sortedness and stability pin the result down: two sorted sequences that
      agree on the order of every group of equal keys are equal. */
  lemma {:induction false} SortedUnique<T>(a: seq<T>, b: seq<T>, key: T -> string)
    requires SortedBy(a, key) && SortedBy(b, key)
    requires forall k :: WithKey(a, key, k) == WithKey(b, key, k)
    ensures a == b
    decreases |a|
  {
    if |a| == 0 || |b| == 0 {
      WithKeyOfHead(a, key);
      WithKeyOfHead(b, key);
    } else {
      var ka, kb := key(a[0]), key(b[0]);
      HeadKeyNotBelow(a, b, key);
      HeadKeyNotBelow(b, a, key);
      LessTotal(ka, kb);
      assert WithKey(a, key, ka)[0] == a[0];
      assert WithKey(b, key, ka)[0] == b[0];
      TailsAgree(a, b, key);
      SortedUnique(a[1..], b[1..], key);
      assert a == [a[0]] + a[1..] && b == [b[0]] + b[1..];
    }
  }

  /** `SortBy` is Python's stable sort: a sorted sequence that keeps the input
      order within each group of equal keys is exactly `SortBy`'s result. */
  lemma StableSortIsSortBy<T>(s: seq<T>, r: seq<T>, key: T -> string)
    requires SortedBy(r, key)
    requires forall k :: WithKey(r, key, k) == WithKey(s, key, k)
    ensures r == SortBy(s, key)
  {
    forall k
      ensures WithKey(r, key, k) == WithKey(SortBy(s, key), key, k)
    {
      SortByStable(s, key, k);
    }
    SortedUnique(r, SortBy(s, key), key);
  }

  /** Sorting an already sorted sequence changes nothing. */
  lemma {:induction false} SortSortedIsIdentity<T>(s: seq<T>, key: T -> string)
    requires SortedBy(s, key)
    ensures SortBy(s, key) == s
    decreases |s|
  {
    if |s| > 0 {
      SortSortedIsIdentity(s[1..], key);
      assert s == [s[0]] + s[1..];
    }
  }

  lemma {:induction false} WithKeyAtMostOne<T>(s: seq<T>, key: T -> string, k: string)
    requires DistinctKeys(s, key)
    ensures |WithKey(s, key, k)| <= 1
    decreases |s|
  {
    if |s| > 0 {
      WithKeyAtMostOne(s[1..], key, k);
      if key(s[0]) == k && |WithKey(s[1..], key, k)| > 0 {
        var x := WithKey(s[1..], key, k)[0];
        WithKeyMember(s[1..], key, k, x);
      }
    }
  }

  lemma {:induction false} WithKeyTwo<T>(s: seq<T>, key: T -> string, i: nat, j: nat)
    requires i < j < |s| && key(s[i]) == key(s[j])
    ensures |WithKey(s, key, key(s[i]))| >= 2
    decreases |s|
  {
    var k := key(s[i]);
    if i > 0 {
      WithKeyTwo(s[1..], key, i - 1, j - 1);
      assert s[1..][i - 1] == s[i];
    } else {
      WithKeyMembers(s[1..], key, k);
      assert s[1..][j - 1] == s[j];
      assert s[j] in WithKey(s[1..], key, k);
    }
  }

  /** Sorting elements with distinct keys orders them strictly by key. */
  lemma SortDistinctIsStrict<T>(s: seq<T>, key: T -> string)
    requires DistinctKeys(s, key)
    ensures StrictlyAscending(SortBy(s, key), key)
    ensures DistinctKeys(SortBy(s, key), key)
  {
    var r := SortBy(s, key);
    forall i, j | 0 <= i < j < |r|
      ensures key(r[i]) != key(r[j])
    {
      if key(r[i]) == key(r[j]) {
        WithKeyTwo(r, key, i, j);
        SortByStable(s, key, key(r[i]));
        WithKeyAtMostOne(s, key, key(r[i]));
      }
    }
    forall i, j | 0 <= i < j < |r|
      ensures Less(key(r[i]), key(r[j]))
    {
      LessTotal(key(r[i]), key(r[j]));
    }
  }

  /** Leaving elements out of a sorted sequence keeps it sorted. */
  lemma {:induction false} SubsequenceKeepsSorted<T>(a: seq<T>, b: seq<T>, key: T -> string)
    requires Seqs.IsSubsequence(a, b) && SortedBy(b, key)
    ensures SortedBy(a, key)
    decreases |b|
  {
    if |a| > 0 {
      if a[0] == b[0] && Seqs.IsSubsequence(a[1..], b[1..]) {
        SubsequenceKeepsSorted(a[1..], b[1..], key);
        Seqs.SubsequenceMembers(a[1..], b[1..]);
        forall j | 1 <= j < |a|
          ensures !Less(key(a[j]), key(a[0]))
        {
          assert a[j] == a[1..][j - 1];
          assert a[j] in a[1..];
          assert a[j] in b[1..];
          var m :| 0 <= m < |b[1..]| && b[1..][m] == a[j];
          assert b[m + 1] == a[j];
        }
      } else {
        SubsequenceKeepsSorted(a, b[1..], key);
      }
    }
  }
}

=== FILE: text.dfy ===
/**
 * String operations the quirk tables rely on, with Python's meaning:
 * `a < b` on `str` (code-point lexicographic order), `t in s` (substring test),
 * `sep.join(parts)`, `str(n)` for a natural number, `s.replace('_', ' ')` and
 * `s.title()` restricted to ASCII text.
 */
module Text {

  /** Python's `a < b` on strings: lexicographic comparison by code point. */
  predicate Less(a: string, b: string)
    decreases |a|
  {
    if |a| == 0 then |b| > 0
    else if |b| == 0 then false
    else if a[0] != b[0] then a[0] < b[0]
    else Less(a[1..], b[1..])
  }

  lemma {:induction false} LessIrreflexive(a: string)
    ensures !Less(a, a)
    decreases |a|
  {
    if |a| > 0 {
      LessIrreflexive(a[1..]);
    }
  }

  lemma {:induction false} LessTransitive(a: string, b: string, c: string)
    requires Less(a, b) && Less(b, c)
    ensures Less(a, c)
    decreases |a|
  {
    if |a| > 0 && a[0] == b[0] && b[0] == c[0] {
      LessTransitive(a[1..], b[1..], c[1..]);
    }
  }

  /** Any two different strings are ordered one way or the other, and never both ways. */
  lemma {:induction false} LessTotal(a: string, b: string)
    ensures a == b || Less(a, b) || Less(b, a)
    ensures !(Less(a, b) && Less(b, a))
    decreases |a|
  {
    if |a| > 0 && |b| > 0 && a[0] == b[0] {
      LessTotal(a[1..], b[1..]);
      if a[1..] == b[1..] {
        assert a == [a[0]] + a[1..] && b == [b[0]] + b[1..];
      }
    }
  }

  /** `a < b` holds exactly when `a` is a proper prefix of `b`, or at the first
      position where they differ `a` has the smaller character. */
  ghost predicate LessByFirstDifference(a: string, b: string) {
    (|a| < |b| && a == b[..|a|])
    || exists k :: 0 <= k < |a| && k < |b| && a[..k] == b[..k] && a[k] < b[k]
  }

  lemma {:induction false} LessMeansFirstDifference(a: string, b: string)
    ensures Less(a, b) <==> LessByFirstDifference(a, b)
    decreases |a|
  {
    if |a| > 0 && |b| > 0 && a[0] == b[0] {
      LessMeansFirstDifference(a[1..], b[1..]);
      if Less(a, b) {
        if |a[1..]| < |b[1..]| && a[1..] == b[1..][..|a[1..]|] {
          assert a == b[..|a|];
        } else {
          var k :| 0 <= k < |a[1..]| && k < |b[1..]| && a[1..][..k] == b[1..][..k] && a[1..][k] < b[1..][k];
          assert a[..k + 1] == [a[0]] + a[1..][..k];
          assert b[..k + 1] == [b[0]] + b[1..][..k];
        }
      }
      if LessByFirstDifference(a, b) {
        if |a| < |b| && a == b[..|a|] {
          assert a[1..] == b[1..][..|a[1..]|];
        } else {
          var k :| 0 <= k < |a| && k < |b| && a[..k] == b[..k] && a[k] < b[k];
          assert k != 0;
          assert a[1..][..k - 1] == a[1..k] == b[1..k] == b[1..][..k - 1];
        }
      }
    } else if |a| > 0 && |b| > 0 {
      if LessByFirstDifference(a, b) && !(|a| < |b| && a == b[..|a|]) {
        var k :| 0 <= k < |a| && k < |b| && a[..k] == b[..k] && a[k] < b[k];
      }
      if Less(a, b) {
        assert a[..0] == b[..0];
      }
    }
  }

  /** `t` occurs in `s` starting at position `i`. */
  ghost predicate OccursAt(s: string, t: string, i: int) {
    0 <= i && i + |t| <= |s| && s[i..i + |t|] == t
  }

  /** Python's `t in s` for strings: `t` is a substring of `s`. */
  predicate Contains(s: string, t: string)
    decreases |s|
  {
    (|t| <= |s| && s[..|t|] == t) || (|s| > 0 && Contains(s[1..], t))
  }

  lemma {:induction false} ContainsMeansOccurs(s: string, t: string)
    ensures Contains(s, t) <==> exists i :: OccursAt(s, t, i)
    decreases |s|
  {
    if |t| <= |s| && s[..|t|] == t {
      assert OccursAt(s, t, 0);
    }
    if |s| > 0 {
      ContainsMeansOccurs(s[1..], t);
      if Contains(s[1..], t) {
        var i :| OccursAt(s[1..], t, i);
        assert OccursAt(s, t, i + 1);
      }
      if exists i :: OccursAt(s, t, i) {
        var i :| OccursAt(s, t, i);
        if i > 0 {
          assert OccursAt(s[1..], t, i - 1);
        } else {
          assert s[..|t|] == t;
        }
      }
    } else {
      if exists i :: OccursAt(s, t, i) {
        var i :| OccursAt(s, t, i);
        assert |t| == 0 && s[..|t|] == t;
      }
    }
  }

  /** A witnessed occurrence is enough to conclude `Contains`. */
  lemma OccursContains(s: string, t: string, i: int)
    requires OccursAt(s, t, i)
    ensures Contains(s, t)
  {
    ContainsMeansOccurs(s, t);
  }

  /** Python's `sep.join(parts)`. */
  function Join(sep: string, parts: seq<string>): (r: string)
    ensures |parts| == 0 ==> r == ""
    ensures |parts| > 0 ==> |parts[0]| <= |r| && r[..|parts[0]|] == parts[0]
  {
    if |parts| == 0 then ""
    else if |parts| == 1 then parts[0]
    else parts[0] + sep + Join(sep, parts[1..])
  }

  /** The decimal digit for `d`. */
  function DigitChar(d: nat): (c: char)
    requires d < 10
    ensures '0' <= c <= '9'
  {
    (48 + d) as char
  }

  /** Python's `str(n)` for a natural number `n`: its decimal digits, no leading zero. */
  function Decimal(n: nat): (s: string)
    ensures 0 < |s|
    ensures forall i :: 0 <= i < |s| ==> '0' <= s[i] <= '9'
    ensures n >= 10 ==> s[0] != '0'
    ensures n == 0 <==> s == "0"
  {
    if n < 10 then [DigitChar(n)] else Decimal(n / 10) + [DigitChar(n % 10)]
  }

  /** Reads a string of decimal digits back as the number it denotes. */
  function DecimalValue(s: string): nat
    requires forall i :: 0 <= i < |s| ==> '0' <= s[i] <= '9'
  {
    if |s| == 0 then 0
    else DecimalValue(s[..|s| - 1]) * 10 + (s[|s| - 1] as int - 48)
  }

  lemma {:induction false} DecimalRoundTrip(n: nat)
    ensures DecimalValue(Decimal(n)) == n
  {
    if n >= 10 {
      var s := Decimal(n);
      assert s[..|s| - 1] == Decimal(n / 10);
      DecimalRoundTrip(n / 10);
    }
  }

  /** Python's `s.replace(from, to)` for single characters. */
  function ReplaceChar(s: string, from: char, to: char): (r: string)
    ensures |r| == |s|
    ensures forall i :: 0 <= i < |s| ==> r[i] == (if s[i] == from then to else s[i])
  {
    seq(|s|, i requires 0 <= i < |s| => if s[i] == from then to else s[i])
  }

  predicate IsLower(c: char) { 'a' <= c <= 'z' }
  predicate IsUpper(c: char) { 'A' <= c <= 'Z' }
  predicate IsLetter(c: char) { IsLower(c) || IsUpper(c) }

  function ToUpper(c: char): char { if IsLower(c) then (c as int - 32) as char else c }
  function ToLower(c: char): char { if IsUpper(c) then (c as int + 32) as char else c }

  /** Python's `s.title()` on ASCII text: a letter that follows a letter is
      lower-cased, every other letter is upper-cased, non-letters are kept. */
  function Title(s: string): (r: string)
    ensures |r| == |s|
  {
    seq(|s|, i requires 0 <= i < |s| =>
      if !IsLetter(s[i]) then s[i]
      else if i > 0 && IsLetter(s[i - 1]) then ToLower(s[i])
      else ToUpper(s[i]))
  }
}
